=== FILE: README.md ===
# Fly-camera demo: camera, gesture and displacement model

A Dafny model of the stateful logic under the rendering calls of a three.js
fly-camera demo. The user flies a camera through a 20-unit wireframe box
("pecera"), drags a displayed object to rotate it, and watches its vertices
"breathe" under a time-driven displacement. A relief scene turns an image
into a grid of small spheres.

The same logic appears in several scenes, nearly verbatim. The model states
each piece once, over `real`:

- **Camera** (`camera.dfy`): the position target is clamped per axis into
  the cube `[-9.5, 9.5]^3` after every keyboard, wheel or pinch write. The
  position eases toward the target by `lerp(..., 0.1)` each frame. Proved:
  the clamp bounds, the ease's exact 0.9 contraction, no overshoot,
  convexity, and `0.9^n` after `n` frames.
- **Orientation** (`orientation.dfy`): the mouse orbit, the 150 px edge-pan
  auto-look, and the pitch clamp
  `Math.max(-limit, Math.min(pitch, pitch))`. The clamp is modelled **as
  written**, so it enforces the lower bound only. `ClampPitchNoUpperBound`
  exhibits a pitch above the limit that survives it.
- **Manipulation** (`manipulation.dfy`): object-drag rotation. `angleY`
  accumulates without bound. `angleX` is clamped to `±(pi/2 - 0.1)`.
- **Displacement** (`displacement.dfy`): the per-vertex radial re-projection
  `scale = (radius + 0.3 sin(pi x + t) cos(pi y + t)) / len`. It is a
  reference definition plus the source's in-place loop. The loop is proved
  to equal the reference, so its result depends only on the base buffer and
  the time.
- **Relief** (`relief.dfy`): the pixel loop of the relief scene. It keeps
  exactly the pixels with alpha at or above 0.1, in row-major order, at most
  one point each. Pixel `(x, y)` sits at `(-0.1 w + 0.2 x, -0.1 h + 0.2 y)`,
  at height `brightness * heightScale`. The points span from `-0.1 n` to
  `0.1 n - 0.2` on each axis. Only the 0.2-wide cells starting at the points
  are centred on the origin.
- **Scenes**: `mainscene.dfy` covers the sphere and square scenes of the
  entry module. `controls.dfy` covers the shared controller module and the
  relief scene's frame. That includes the touch gesture machine: one finger
  rotates, two fingers pinch, and lifting the last finger resets. `cubescene.dfy`
  covers the cube scene and its drag flag.

`sin`, `cos`, `sqrt` and `Vector3.normalize` are uninterpreted. They are
fields of a `Math` value passed to every operation that uses them. Lemmas
that need a fact about them, such as `sin(3 pi) = 0`, take it as a
precondition. Viewport size, timestamps and input events are parameters.

Behaviour of the code that the model keeps as written:

- The pitch is bounded below only. The upper clamp compares the pitch with
  itself.
- Holding `w` at yaw = pi, pitch = 0 moves the target by `-0.1` in z. The
  forward vector there is `(0, 0, cos 0 * cos pi) = (0, 0, -1)`.
- A frame runs displacement, then `moveCamera` (which already eases the
  position), then auto-look, then `updateCamera`. The position is not
  advanced after auto-look.
- The initial position and target `(0, 0, 10)` lie outside the clamping
  cube. The first `moveCamera` pulls the target to `z = 9.5`.
- Touch events with more than two contacts are ignored entirely.
- The pinch baseline survives a drop to one contact and is cleared only when
  no contacts remain. A two-finger move with no baseline subtracts `null`,
  which reads as 0.
- Auto-look is not idempotent: each frame nudges again while the pointer
  stays near an edge. Only its per-frame increment is fixed for a still
  pointer (`AutoLookIncrementIndependent`).

## Model

| member | source | states |
|---|---|---|
| Input.PressKey | main.js:21 | the lower-cased key becomes held and no other key changes |
| Input.ReleaseKey | main.js:22 | the lower-cased key is no longer held and no other key changes |
| Input.PressReleaseRoundTrip | main.js:21-22 | releasing a key pressed while up restores the key set, whatever the letter case used |
| Camera.ClampAxis | main.js:198-201 | the clamped coordinate lies in `[-9.5, 9.5]`, is unchanged when already inside, and is the closest point of the interval |
| Camera.ClampToCube | main.js:198-201 | the clamped target lies in the cube; on each axis a coordinate in `[-9.5, 9.5]` is kept and one outside goes to the nearer face |
| Camera.Ease | main.js:203 | on every axis the new offset from the target is exactly 0.9 times the old one |
| Camera.EaseNoOvershoot | main.js:203 | the eased position lies between the old position and the target, on the same side of the target, strictly closer unless already there |
| Camera.EaseStaysInCube | main.js:203 | a position and target inside the cube ease to a position inside the cube |
| Camera.EaseFramesContract | main.js:203 | after n frames toward a fixed target the offset is `0.9^n` times the initial offset |
| Camera.MoveCamera | main.js:176-204 | after `moveCamera` the target is the clamped key motion of the old target, the orientation is unchanged, the position is eased toward the new target (and stays in the cube if it was), and with no movement key held an in-cube target does not move |
| Camera.KeyMotionClosedForm | main.js:179-196 | the held keys move the target by `0.1 (w - s)` along the forward vector, `0.1 (d - a)` along the right vector and `0.1 (space - shift)` up, each key counting 1 when held |
| Camera.OpposingKeysCancel | main.js:189-196 | holding w and s, a and d, or space and shift together moves the target as if neither key were held |
| Camera.LevelFlight | main.js:179-196 | if normalize keeps horizontal vectors horizontal, only space and shift change the target's height, by one step each |
| Camera.ForwardAtYawPi | main.js:179-189 | at yaw = pi and pitch = 0, one frame of `w` moves an in-cube target by exactly -0.1 in z |
| Camera.Zoom | main.js:279-292 | a zoom moves the target by `amount * lookDir` and clamps it per axis into the cube, so a move that stays inside is exact; position and orientation are unchanged |
| Camera.WheelZoom | main.js:274-295 | the wheel moves the target by `-deltaY * 0.005` along the view direction, then clamps it per axis into the cube |
| Camera.WheelNotch | main.js:278-279 | a wheel delta of -100 is a zoom of 0.5 |
| Camera.InitialTargetOutsideCube | main.js:130-131 | the starting target lies outside the cube, and the first `moveCamera` clamps it to `z = 9.5` |
| Camera.UpdateCamera | main.js:164-174 | the rendered camera sits at the position and looks at the position plus the view direction |
| Camera.UpdateCameraUnitLook | main.js:167-171 | with `sin^2 + cos^2 = 1` at the yaw and pitch, the look-at point is one unit from the position |
| Camera.ZoomFromOrigin | main.js:279-292 | looking along `+z` from the origin, an in-range zoom of `k` puts the target at `(0, 0, k)` |
| Orientation.ClampPitch | main.js:266 | the clamped pitch is at least `-limit` and equals the input when the input is at least `-limit`; nothing bounds it from above |
| Orientation.ClampPitchNoUpperBound | main.js:230 | a pitch of 2 rad, above the limit, passes the clamp unchanged |
| Orientation.ClampPitchIdempotent | controls.js:222 | clamping the pitch twice is clamping it once |
| Orientation.Orbit | main.js:260-270 | a non-drag mouse move decreases yaw by exactly `dx * 0.002`, sets pitch to `pitch - dy * 0.002` when that is at least `-limit` and to `-limit` otherwise, and leaves position and target alone |
| Orientation.OrbitTenPixels | main.js:264 | moving 10 px right without a drag turns yaw by -0.02 |
| Orientation.OrbitYawAdditive | controls.js:69 | yaw changes from consecutive orbit moves add up |
| Orientation.EdgeNudge | main.js:212-228 | the per-axis auto-look change is positive inside the near 150 px border, negative inside the far one, zero in the deadzone, and at most 0.02 in size for an in-viewport pointer |
| Orientation.EdgeNudgeLinear | main.js:212-219 | both intensity ramps are linear: each pixel deeper into the near border adds `0.02 / 150`, each pixel deeper into the far border (outside the near one) subtracts `0.02 / 150` |
| Orientation.AutoLook | main.js:206-231 | auto-look is a no-op while suppressed; otherwise yaw changes by the edge nudge of the pointer's x and the pitch becomes the lower clamp of (pitch + the edge nudge of the pointer's y); position and target are never touched |
| Orientation.AutoLookDeadzone | controls.js:203-223 | a pointer in the deadzone leaves an already-admissible orientation unchanged |
| Orientation.AutoLookBounded | main.js:404-429 | an in-viewport pointer changes yaw and pitch by at most 0.02 each per frame |
| Orientation.AutoLookIncrementIndependent | controls.js:206-220 | with the same pointer and viewport the yaw increment is the same whatever the prior orientation, and so is the pitch increment whenever neither nudged pitch falls below `-limit` |
| Manipulation.ClampTilt | main.js:253 | the clamped tilt lies in `[-(pi/2 - 0.1), pi/2 - 0.1]`, an in-range tilt is unchanged, and out-of-range tilts go to the nearer bound |
| Manipulation.Rotate | scenes/cubo.js:61-64 | `rotate(dx, dy)` adds dx to angleY exactly; angleX becomes `angleX + dy` when that is in range and the nearer bound otherwise |
| Manipulation.Drag | main.js:247-256 | a drag adds `dx * sensitivity` to the horizontal angle and sets the tilt to `tilt + dy * sensitivity` when in range, else to the nearer bound |
| Manipulation.RotateZeroIdentity | scenes/cubo.js:61-64 | `rotate(0, 0)` on an in-range tilt changes nothing |
| Manipulation.RotateAllAccumulates | scenes/cubo.js:62 | after any sequence of rotations angleY is the start plus the sum of the horizontal offsets, and the tilt stays in range |
| Displacement.Displace | main.js:145-161 | the reference live buffer has the base buffer's length, and every vertex is the base vertex re-projected by the breathing formula |
| Displacement.ScaleVertex | controls.js:235-241 | the new vertex is parallel to the base vertex (zero cross product) and, when sqrt is a true square root there, has length `radius + offset` (squared); it is the vertex the reference buffer holds |
| Displacement.DistortBuffer | controls.js:225-244 | the in-place loop overwrites all `3 * vertexCount` entries and yields exactly the reference buffer, whatever the previous live contents, so two calls with the same time agree and the base is only read |
| Displacement.DisplacedLength | main.js:153-159 | when sqrt is a true square root at the vertex, the displaced vertex has length `radius + offset` (squared) |
| Displacement.OffsetBounded | main.js:154 | with sin and cos in `[-1, 1]` the offset stays within `[-0.3, 0.3]` |
| Displacement.StillVertexAtTimeZero | scenes/cubo.js:50-56 | the vertex `(3, 0, 0)` of a radius-3 mesh at time 0 is not moved |
| Relief.PixelIndexInBounds | scenes/relieve.js:54-60 | for `x < w`, `y < h` the index `(y w + x) 4` and its three successors lie in `[0, 4 w h)` |
| Relief.OpaqueIffAlphaByte | scenes/relieve.js:60-62 | a pixel is kept exactly when its alpha byte is at least 26 (normalised alpha at least 0.1) |
| Relief.HeightBounded | scenes/relieve.js:57-65 | channels in `[0, 1]` give brightness in `[0, 1]` and, for a non-negative scale, height in `[0, heightScale]` |
| Relief.GridCentred | scenes/relieve.js:48-50 | the point grid's cells cover exactly `[-0.1 n, 0.1 n]` and mirror each other about the origin |
| Relief.RowKeptSpec | scenes/relieve.js:55-72 | for any skip test, the pixels the inner loop keeps from a row are exactly the accepted pixels below the column bound, left to right, at most one per column |
| Relief.KeptSpec | scenes/relieve.js:54-73 | for any skip test, the pixels the nested loop keeps from the first rows are exactly their accepted pixels, strictly in row-major order, at most one per pixel |
| Relief.OpaquePixels | scenes/relieve.js:54-73 | over the whole image: every kept pixel is in the image and opaque, every opaque pixel is kept, the order is row-major, and there are at most `w h` |
| Relief.PixelPoint | scenes/relieve.js:56-70 | a pixel is kept exactly when its alpha byte is at least 26; a kept pixel's point sits at `(-0.1 w + 0.2 x, -0.1 h + 0.2 y)` at a height in `[0, heightScale]` for a non-negative scale |
| Relief.ScanRow | scenes/relieve.js:55-72 | one pass of the inner loop extends the points of the rows above by exactly the points of row `y`'s opaque pixels, left to right |
| Relief.Rebuild | scenes/relieve.js:46-73 | after the onload handler the group holds exactly one point per opaque pixel, in row-major order, each at `(-0.1 w + 0.2 x, -0.1 h + 0.2 y, brightness * heightScale)`; nothing of the old group remains |
| Controls.OnMouseDown | controls.js:43-47 | mousedown starts a drag and records the pointer, changing nothing else |
| Controls.Setup | controls.js:3-27 | set-up starts from the shared starting camera, the pointer at the viewport centre, the last mouse position at `(0, 0)`, no key held, no gesture and no pinch baseline |
| Controls.SetupFirstTick | controls.js:175-198 | the first relief frame after set-up puts the target at `(0, 0, 9.5)`, and a centred pointer in a viewport of at least 300 px leaves the orientation alone |
| Controls.OnMouseMove | controls.js:51-76 | a move records the pointer; it drags the sphere only while dragging with a sphere present: angleY by `dx * 0.005`, the tilt to the clamped `tilt + dy * 0.005`, buffers kept; otherwise the camera takes the orbit by the movement-or-client deltas in x and y; nothing else changes (keys, flags, pinch baseline) |
| Controls.OnTouchStart | controls.js:78-89 | one contact arms rotation and records it; two contacts disarm rotation and record the pinch baseline; any other count changes nothing |
| Controls.OnTouchMove | controls.js:91-130 | one contact rotates the sphere at sensitivity `2 * 0.005`, with the tilt set to the clamped `tilt + dy * 0.01`, only while armed; two contacts zoom by `(newDist - lastDist) * 0.01`, replace the baseline distance and midpoint and move the pointer to the midpoint; each branch changes nothing else (the baseline and keys survive a one-contact move); any other case changes nothing |
| Controls.OnTouchEnd | controls.js:132-139 | lifting the last contact clears rotation, baseline distance and midpoint, and nothing else; with contacts remaining nothing changes |
| Controls.OnTouchStartAsWritten | controls.js:78-89 | as written without a `getTouchDist` definition, a two-contact start only disarms rotation and records no baseline |
| Controls.OnTouchMoveAsWritten | controls.js:105-108 | as written without a `getTouchDist` definition, a two-contact move changes nothing; other moves are as modelled |
| Controls.PinchLostAsWritten | controls.js:84-124 | a 10 px to 20 px spread at yaw 0, pitch 0 zooms the target to `(0, 0, 0.1)` with the helpers defined and leaves the camera alone as written |
| Controls.Handle | controls.js:40-159 | keydown adds and keyup removes the lower-cased key; mousedown starts a drag; mouseup and mouseleave end it and change nothing else; the wheel zooms by `-deltaY * 0.005` and changes only the camera; mouse moves and touch events go to their handlers |
| Controls.HandleKeepsTargetInCube | controls.js:117-122 | no single event takes an in-cube target out of the cube |
| Controls.RunKeepsTargetInCube | controls.js:153-158 | no sequence of events takes an in-cube target out of the cube |
| Controls.NoRotationWithoutFreshStart | controls.js:93 | with rotation disarmed, touch input without a fresh one-contact start never rearms it and never rotates the sphere |
| Controls.PinchCancelsRotation | controls.js:84-88 | after a two-contact start, later touch input leaves the sphere's rotation alone until a fresh one-contact start |
| Controls.PinchTelescopes | controls.js:110-124 | the zoom deltas of consecutive pinch moves sum to `0.01 (finalDist - initialDist)`, with a missing baseline reading as 0, and the baseline ends at the final distance |
| Controls.AutoRotate | controls.js:203-204 | auto-look does nothing while the mouse drags or a touch rotation is armed |
| Controls.Move | controls.js:175-198 | `moveCamera` sets the target to the clamped key motion of the old target, eases the position toward it, keeps the orientation, and changes nothing but the camera |
| Controls.DistortGeometry | controls.js:225-244 | with no sphere nothing changes; otherwise the live buffer becomes the radius-3 displacement of the base, which is kept, and nothing else changes |
| Controls.ReliefTick | scenes/relieve.js:79-85 | a relief frame keys the target with the pre-auto-look orientation and eases the position toward it; with no gesture active, yaw gains the x edge nudge and pitch becomes the lower clamp of (pitch + y edge nudge), otherwise the orientation is kept; nothing but the camera changes; the pose is that of the updated camera |
| MainScene.OnMouseMove | main.js:246-271 | while dragging, a move rotates the object (angleY by `dx * 0.005`, tilt to the clamped `tilt + dy * 0.005`, mesh rotation equal to the stored angles); otherwise the camera takes the orbit by the movement-or-client deltas in x and y; the pointer is recorded and nothing else changes |
| MainScene.Create | main.js:124-138 | a new scene starts from the starting camera with zero object angles shown by the mesh, no drag, no key held, the pointer at the viewport centre and the last mouse position at `(0, 0)` |
| MainScene.CreateFirstTick | main.js:176-204 | the first frame of a new scene puts the target at `(0, 0, 9.5)`, and a centred pointer in a viewport of at least 300 px leaves the orientation alone |
| MainScene.Handle | main.js:233-295 | with the window key listeners of main.js lines 21-22: keydown adds and keyup removes the lower-cased key; mousedown starts a drag; mouseup and mouseleave end it and change nothing else; the wheel zooms by `-deltaY * 0.005` and changes only the camera; touch events change nothing |
| MainScene.HandlePreservesInvariants | main.js:233-295 | every event keeps mesh rotation equal to the stored angles, the tilt in range and the target in the cube |
| MainScene.Tick | main.js:298-308 | a frame displaces the sphere's mesh (not the square's), moves and eases the camera, then, unless dragging, adds the x edge nudge to yaw and sets the pitch to the lower clamp of (pitch + y edge nudge), and renders the pose of the updated camera; nothing but the mesh and the camera changes |
| MainScene.Frames | main.js:298-305 | frames keep the state valid, put the target in the cube, and keep an in-cube position in the cube |
| CubeScene.RotateCube | scenes/cubo.js:61-68 | rotate adds dx to angleY, sets angleX to the clamped `angleX + dy`, and makes the mesh rotation equal the stored angles |
| CubeScene.RotateCubeZero | scenes/cubo.js:61-67 | `rotate(0, 0)` on an in-range cube changes nothing |
| CubeScene.Distort | scenes/cubo.js:42-59 | distort overwrites the live buffer with the radius `size / 2 = 3` displacement of the base, which is kept, and leaves the angles alone |
| CubeScene.Handle | scenes/cubo.js:105-130 | mousedown sets the drag flag and records the press point, mouseup and mouseleave only clear the flag; a mousemove while dragging rotates the cube by the client delta times 0.005 from the last recorded point and records the pointer; every other event, and a move without a drag, changes nothing |
| CubeScene.RunDragging | scenes/cubo.js:106-118 | after any run the drag flag is set exactly when the last press or release was a press |
| CubeScene.NoRotationWithoutPress | scenes/cubo.js:120-130 | with the button up and no mousedown, no run of events rotates the cube |
| CubeScene.Animate | scenes/cubo.js:133-139 | a cube frame displaces the mesh at `time * 0.001` seconds and changes nothing else: angles, mesh rotation, base buffer, drag flag and pointer are kept |

## Left out

- Scene, mesh, light, material and shader construction, `renderer.render`
  and resize handling: three.js and GPU calls with no state of their own.
- `cleanupCurrentScene` and `switchScene`: frame scheduling and GPU
  disposal. The listeners that each scene build adds and never removes are
  also left out.
- `cameraMovement.js`, `loader.js` and `scenes/esfera.js`: a translation
  wrapper, a dynamic import, and scene construction.
- File input, image decoding, the 2D canvas, `getImageData` and
  `parseFloat` of the height-scale field in the relief scene. The pixel
  array and the scale are inputs. A NaN scale is not modelled.
- The values of `sin`, `cos`, `sqrt` and `normalize`: they are
  uninterpreted. `Math.PI` is the decimal `3.141592653589793`.
- Float32 storage and double rounding: all arithmetic is on `real`.
- Division by a zero vertex length: `Displacement.NonDegenerate` is a
  precondition. JavaScript would produce Infinity or NaN there.
- `getTouchDist` and `getTouchMidpoint`: `controls.js` calls them but
  neither declares nor imports them; unless a page script defines them as
  globals, the calls throw. The model takes the Euclidean distance (through the
  uninterpreted `sqrt`) and the arithmetic midpoint; the as-written
  behaviour is under "## Findings".
- The window-level `mousemove` listener of the entry module and the canvas
  listener are one event in `MainScene`: a move over a page element above
  the canvas, such as the scene selector, records the pointer in the source
  without orbiting or dragging, which the model does not represent.
- MainScene.Create starts each scene with the pointer at the viewport centre
  and no key held. In the source the pointer and the key set are
  module-wide, so after a scene switch they carry over from the previous
  scene; scene switching itself is left out.
- Controls.Setup likewise starts from the centred pointer, the starting
  camera and no touch state. In the source these are module-load
  initialisers of `controls.js` that `setupControls` never resets, so a
  second set-up keeps the previous values.
- `toLowerCase` beyond ASCII letters, and a missing or NaN `movementX`.
  Only a zero movement falls back to the client delta.
- `preventDefault`, the `needsUpdate` re-upload flag, and `passive`
  listener options: host effects with no state in the model.
- Orientation.AutoLookBounded and Orientation.AutoLookDeadzone assume the
  pitch is already at least `-limit`. Below that, the lower clamp can move
  the pitch by more than one nudge.
- Camera.LevelFlight takes as a hypothesis that `normalize` keeps
  horizontal vectors horizontal, since `normalize` is uninterpreted.
- Displacement.DisplacedLength, Displacement.OffsetBounded and
  Displacement.StillVertexAtTimeZero take the needed facts about `sqrt`,
  `sin` and `cos` as hypotheses.

## Findings

| source | as written | input that shows it | evidently intended | confidence | as-written member | corrected member |
|---|---|---|---|---|---|---|
| controls.js:84-88, controls.js:105-108 | `getTouchDist` and `getTouchMidpoint` are called, but `controls.js` neither declares nor imports them; unless a page script defines them as globals, the calls throw and the two-contact branches stop there: a start only disarms rotation, a move changes nothing | two fingers 10 px apart spreading to 20 px at yaw 0, pitch 0 | the Euclidean distance and midpoint of the first two contacts, so the pinch zooms by `0.01 (newDist - lastDist)` | medium, not executed: a page script outside the repository could define them as globals | Controls.PinchLostAsWritten | Controls.PinchTelescopes |

=== FILE: basics.dfy ===
/** Shared value types of the fly-camera model: 3D vectors, 2D pointer
    coordinates, an optional value, and the host's transcendental functions,
    which the model leaves uninterpreted. */
module Basics {

  /** A value that may be absent; the source uses `null` for this. */
  datatype Option<T> = None | Some(value: T)

  /** A three.js `Vector3`, over the reals (no float rounding). */
  datatype Vec3 = Vec3(x: real, y: real, z: real) {

    function Plus(v: Vec3): Vec3 {
      Vec3(x + v.x, y + v.y, z + v.z)
    }

    function Minus(v: Vec3): Vec3 {
      Vec3(x - v.x, y - v.y, z - v.z)
    }

    function Times(k: real): Vec3 {
      Vec3(x * k, y * k, z * k)
    }

    function NormSquared(): real {
      x * x + y * y + z * z
    }
  }

  /** A pointer or touch position in client pixels. */
  datatype Point2 = Point2(x: real, y: real)

  /** `Math.sin`, `Math.cos`, `Math.sqrt` and `Vector3.normalize`, taken as
      parameters so that nothing is assumed about their values. */
  datatype Math = Math(
    sin: real -> real,
    cos: real -> real,
    sqrt: real -> real,
    normalize: Vec3 -> Vec3)

  /** `Math.PI`, as the decimal JavaScript prints for it. */
  const Pi: real := 3.141592653589793

  /** The world up axis `(0, 1, 0)`. */
  const Up: Vec3 := Vec3(0.0, 1.0, 0.0)

  /** `Math.min` on non-NaN arguments. */
  function Min(a: real, b: real): real {
    if a <= b then a else b
  }

  /** `Math.max` on non-NaN arguments. */
  function Max(a: real, b: real): real {
    if a >= b then a else b
  }

  function Abs(a: real): real {
    if a >= 0.0 then a else -a
  }

  /** `Vector3.crossVectors(a, b)`. */
  function Cross(a: Vec3, b: Vec3): Vec3 {
    Vec3(a.y * b.z - a.z * b.y, a.z * b.x - a.x * b.z, a.x * b.y - a.y * b.x)
  }

  /** `v` lies between `a` and `b` (in either order). */
  predicate Between(v: real, a: real, b: real) {
    Min(a, b) <= v <= Max(a, b)
  }
}

=== FILE: camera.dfy ===
/** The camera motion model shared by every scene: a position eased toward
    a position target that is kept inside the fish-tank cube, and a yaw/pitch
    orientation. */
module Camera {
  import opened Basics

  /** Edge length of the wireframe box every scene draws. */
  const BoxSize: real := 20.0

  /** Half-extent of the cube the position target is clamped into:
      `boxSize / 2 - 0.5`. */
  const CubeLimit: real := BoxSize / 2.0 - 0.5

  /** Units the target moves per held key per frame. */
  const MoveSpeed: real := 0.1

  /** The `lerp` factor applied to the position each frame. */
  const EaseFactor: real := 0.1

  /** Wheel zoom per unit of `deltaY`. */
  const WheelSpeed: real := 0.005

  /** Pinch zoom per pixel of change in finger distance. */
  const PinchSpeed: real := 0.01

  /** `camPitchLimit = Math.PI / 2 - 0.1`. */
  const PitchLimit: real := Pi / 2.0 - 0.1

  /** `camPos`, `camPosTarget`, `camYaw`, `camPitch`. */
  datatype Cam = Cam(pos: Vec3, target: Vec3, yaw: real, pitch: real)

  /** Every scene starts at `(0, 0, 10)` looking along yaw = pi. */
  const Initial: Cam := Cam(Vec3(0.0, 0.0, 10.0), Vec3(0.0, 0.0, 10.0), Pi, 0.0)

  predicate InRange(v: real) {
    -CubeLimit <= v <= CubeLimit
  }

  predicate InCube(v: Vec3) {
    InRange(v.x) && InRange(v.y) && InRange(v.z)
  }

  /** `Math.min(limit, Math.max(-limit, v))`: the closest point of the
      interval to `v`. */
  function ClampAxis(v: real): (r: real)
    ensures InRange(r)
    ensures InRange(v) ==> r == v
    ensures forall u :: InRange(u) ==> Abs(r - v) <= Abs(u - v)
  {
    Min(CubeLimit, Max(-CubeLimit, v))
  }

  /** The per-axis clamp applied after every write of the target: each
      coordinate is kept when in range and otherwise moved to the nearer
      face of the cube. */
  function ClampToCube(v: Vec3): (r: Vec3)
    ensures InCube(r)
    ensures InCube(v) ==> r == v
    ensures InRange(v.x) ==> r.x == v.x
    ensures InRange(v.y) ==> r.y == v.y
    ensures InRange(v.z) ==> r.z == v.z
    ensures v.x < -CubeLimit ==> r.x == -CubeLimit
    ensures v.y < -CubeLimit ==> r.y == -CubeLimit
    ensures v.z < -CubeLimit ==> r.z == -CubeLimit
    ensures v.x > CubeLimit ==> r.x == CubeLimit
    ensures v.y > CubeLimit ==> r.y == CubeLimit
    ensures v.z > CubeLimit ==> r.z == CubeLimit
  {
    Vec3(ClampAxis(v.x), ClampAxis(v.y), ClampAxis(v.z))
  }

  /** `camPos.lerp(camPosTarget, 0.1)`. */
  function Ease(pos: Vec3, target: Vec3): (r: Vec3)
    ensures r.x - target.x == 0.9 * (pos.x - target.x)
    ensures r.y - target.y == 0.9 * (pos.y - target.y)
    ensures r.z - target.z == 0.9 * (pos.z - target.z)
  {
    pos.Plus(target.Minus(pos).Times(EaseFactor))
  }

  /** The ease never overshoots: on every axis the new position lies between
      the old position and the target, on the same side of the target, and
      strictly closer unless it was already there. */
  lemma EaseNoOvershoot(pos: Vec3, target: Vec3)
    ensures Between(Ease(pos, target).x, pos.x, target.x)
    ensures Between(Ease(pos, target).y, pos.y, target.y)
    ensures Between(Ease(pos, target).z, pos.z, target.z)
    ensures (Ease(pos, target).x - target.x) * (pos.x - target.x) >= 0.0
    ensures pos.x != target.x ==> Abs(Ease(pos, target).x - target.x) < Abs(pos.x - target.x)
    ensures pos.y != target.y ==> Abs(Ease(pos, target).y - target.y) < Abs(pos.y - target.y)
    ensures pos.z != target.z ==> Abs(Ease(pos, target).z - target.z) < Abs(pos.z - target.z)
  {
    var r := Ease(pos, target);
    assert (r.x - target.x) * (pos.x - target.x) == 0.9 * ((pos.x - target.x) * (pos.x - target.x));
  }

  /** Convexity: a position and a target inside the cube ease to a position
      inside the cube. */
  lemma EaseStaysInCube(pos: Vec3, target: Vec3)
    requires InCube(pos) && InCube(target)
    ensures InCube(Ease(pos, target))
  {
  }

  /** `n` frames of easing toward a fixed target. */
  function EaseFrames(pos: Vec3, target: Vec3, n: nat): Vec3
    decreases n
  {
    if n == 0 then pos else EaseFrames(Ease(pos, target), target, n - 1)
  }

  function Pow(b: real, n: nat): real
    decreases n
  {
    if n == 0 then 1.0 else b * Pow(b, n - 1)
  }

  /** After `n` frames toward a fixed target the offset on every axis is
      exactly `0.9^n` times the initial one: a geometric contraction. */
  lemma {:induction false} EaseFramesContract(pos: Vec3, target: Vec3, n: nat)
    ensures EaseFrames(pos, target, n).x - target.x == Pow(0.9, n) * (pos.x - target.x)
    ensures EaseFrames(pos, target, n).y - target.y == Pow(0.9, n) * (pos.y - target.y)
    ensures EaseFrames(pos, target, n).z - target.z == Pow(0.9, n) * (pos.z - target.z)
    decreases n
  {
    if n > 0 {
      var next := Ease(pos, target);
      EaseFramesContract(next, target, n - 1);
      var k := Pow(0.9, n - 1);
      assert k * (0.9 * (pos.x - target.x)) == (0.9 * k) * (pos.x - target.x);
      assert k * (0.9 * (pos.y - target.y)) == (0.9 * k) * (pos.y - target.y);
      assert k * (0.9 * (pos.z - target.z)) == (0.9 * k) * (pos.z - target.z);
    }
  }

  /** The view direction `(cos p sin y, sin p, cos p cos y)`. */
  function LookDir(m: Math, yaw: real, pitch: real): Vec3 {
    Vec3(m.cos(pitch) * m.sin(yaw), m.sin(pitch), m.cos(pitch) * m.cos(yaw))
  }

  /** The level forward vector: the view direction with its vertical
      component dropped, normalised. */
  function Forward(m: Math, yaw: real, pitch: real): Vec3 {
    m.normalize(Vec3(m.cos(pitch) * m.sin(yaw), 0.0, m.cos(pitch) * m.cos(yaw)))
  }

  /** `normalize(cross(forward, up))`. */
  function Right(m: Math, yaw: real, pitch: real): Vec3 {
    m.normalize(Cross(Forward(m, yaw, pitch), Up))
  }

  /** The keys `moveCamera` reads. */
  const MotionKeys: set<string> := {"w", "s", "a", "d", " ", "shift"}

  /** One pair of opposing keys: the first key's step is added when it is
      held, then the second key's. */
  function KeyPair(t: Vec3, first: Vec3, second: Vec3, firstHeld: bool, secondHeld: bool): Vec3 {
    var t1 := if firstHeld then t.Plus(first) else t;
    if secondHeld then t1.Plus(second) else t1
  }

  /** The target after the held keys are applied, in the source's order
      (w, s, a, d, space, shift), before clamping. */
  function KeyMotion(m: Math, target: Vec3, yaw: real, pitch: real, keys: set<string>): Vec3 {
    Motion(m, target, yaw, pitch, "w" in keys, "s" in keys, "a" in keys, "d" in keys, " " in keys, "shift" in keys)
  }

  /** `KeyMotion` with each key's state given as a flag. */
  function Motion(m: Math, target: Vec3, yaw: real, pitch: real, w: bool, s: bool, a: bool, d: bool, up: bool, down: bool): Vec3 {
    var f := Forward(m, yaw, pitch);
    var rt := Right(m, yaw, pitch);
    var t2 := KeyPair(target, f.Times(MoveSpeed), f.Times(-MoveSpeed), w, s);
    var t4 := KeyPair(t2, rt.Times(-MoveSpeed), rt.Times(MoveSpeed), a, d);
    KeyPair(t4, Vec3(0.0, MoveSpeed, 0.0), Vec3(0.0, -MoveSpeed, 0.0), up, down)
  }

  /** 1 for a held key, 0 for a released one. */
  function Held(b: bool): real {
    if b then 1.0 else 0.0
  }

  /** The keys' net effect in closed form: the target moves
      `0.1 (w - s)` along the forward vector, `0.1 (d - a)` along the right
      vector and `0.1 (space - shift)` up, each key counting 1 when held. */
  lemma KeyMotionClosedForm(m: Math, target: Vec3, yaw: real, pitch: real, keys: set<string>)
    ensures var f, rt := Forward(m, yaw, pitch), Right(m, yaw, pitch);
            var fwd := MoveSpeed * (Held("w" in keys) - Held("s" in keys));
            var side := MoveSpeed * (Held("d" in keys) - Held("a" in keys));
            var lift := MoveSpeed * (Held(" " in keys) - Held("shift" in keys));
            KeyMotion(m, target, yaw, pitch, keys)
            == target.Plus(f.Times(fwd)).Plus(rt.Times(side)).Plus(Vec3(0.0, lift, 0.0))
  {
    var f, rt := Forward(m, yaw, pitch), Right(m, yaw, pitch);
    var w, s, a, d := "w" in keys, "s" in keys, "a" in keys, "d" in keys;
    var up, down := " " in keys, "shift" in keys;
    var fwd := MoveSpeed * (Held(w) - Held(s));
    var side := MoveSpeed * (Held(d) - Held(a));
    var t2 := KeyPair(target, f.Times(MoveSpeed), f.Times(-MoveSpeed), w, s);
    PairStep(target, f, MoveSpeed, w, s);
    assert t2 == target.Plus(f.Times(fwd));
    var t4 := KeyPair(t2, rt.Times(-MoveSpeed), rt.Times(MoveSpeed), a, d);
    PairStep(t2, rt, -MoveSpeed, a, d);
    assert -MoveSpeed * (Held(a) - Held(d)) == side;
    assert t4 == t2.Plus(rt.Times(side));
    PairStep(t4, Up, MoveSpeed, up, down);
    assert Up.Times(MoveSpeed * (Held(up) - Held(down))) == Vec3(0.0, MoveSpeed * (Held(up) - Held(down)), 0.0);
  }

  /** One pair of opposing keys along direction `u` with step `k`: the
      target moves `k (first - second)` along `u`. */
  lemma PairStep(t: Vec3, u: Vec3, k: real, first: bool, second: bool)
    ensures KeyPair(t, u.Times(k), u.Times(-k), first, second) == t.Plus(u.Times(k * (Held(first) - Held(second))))
  {
    var n := Held(first) - Held(second);
    if first && second {
      assert n == 0.0;
      assert u.x * (k * n) == 0.0 && u.y * (k * n) == 0.0 && u.z * (k * n) == 0.0;
    } else if first {
      assert k * n == k;
    } else if second {
      assert k * n == -k;
    } else {
      assert u.x * (k * n) == 0.0 && u.y * (k * n) == 0.0 && u.z * (k * n) == 0.0;
    }
  }

  /** `moveCamera`: apply the held keys to the target, clamp it into the
      cube, then ease the position toward it. */
  function MoveCamera(m: Math, c: Cam, keys: set<string>): (r: Cam)
    ensures InCube(r.target)
    ensures r.yaw == c.yaw && r.pitch == c.pitch
    ensures r.pos == Ease(c.pos, r.target)
    ensures InCube(c.pos) ==> InCube(r.pos)
    ensures keys !! MotionKeys && InCube(c.target) ==> r.target == c.target
    ensures r.target == ClampToCube(KeyMotion(m, c.target, c.yaw, c.pitch, keys))
  {
    var target := ClampToCube(KeyMotion(m, c.target, c.yaw, c.pitch, keys));
    assert keys !! MotionKeys ==> forall k :: k in MotionKeys ==> k !in keys;
    c.(pos := Ease(c.pos, target), target := target)
  }

  /** Opposing keys cancel: holding both `w` and `s`, both `a` and `d`, or
      both space and shift moves the target as if neither were held. */
  lemma OpposingKeysCancel(m: Math, target: Vec3, yaw: real, pitch: real, keys: set<string>)
    ensures KeyMotion(m, target, yaw, pitch, keys + {"w", "s"})
         == KeyMotion(m, target, yaw, pitch, keys - {"w", "s"})
    ensures KeyMotion(m, target, yaw, pitch, keys + {"a", "d"})
         == KeyMotion(m, target, yaw, pitch, keys - {"a", "d"})
    ensures KeyMotion(m, target, yaw, pitch, keys + {" ", "shift"})
         == KeyMotion(m, target, yaw, pitch, keys - {" ", "shift"})
  {
    ForwardKeysCancel(m, target, yaw, pitch, keys);
    StrafeKeysCancel(m, target, yaw, pitch, keys);
    VerticalKeysCancel(m, target, yaw, pitch, keys);
  }

  lemma ForwardKeysCancel(m: Math, target: Vec3, yaw: real, pitch: real, keys: set<string>)
    ensures KeyMotion(m, target, yaw, pitch, keys + {"w", "s"})
         == KeyMotion(m, target, yaw, pitch, keys - {"w", "s"})
  {
    var plus, minus := keys + {"w", "s"}, keys - {"w", "s"};
    assert ("a" in plus) == ("a" in minus) && ("d" in plus) == ("d" in minus);
    assert (" " in plus) == (" " in minus) && ("shift" in plus) == ("shift" in minus);
    var f := Forward(m, yaw, pitch);
    PairCancels(target, f.Times(MoveSpeed), f.Times(-MoveSpeed));
  }

  lemma StrafeKeysCancel(m: Math, target: Vec3, yaw: real, pitch: real, keys: set<string>)
    ensures KeyMotion(m, target, yaw, pitch, keys + {"a", "d"})
         == KeyMotion(m, target, yaw, pitch, keys - {"a", "d"})
  {
    var plus, minus := keys + {"a", "d"}, keys - {"a", "d"};
    assert ("w" in plus) == ("w" in minus) && ("s" in plus) == ("s" in minus);
    assert (" " in plus) == (" " in minus) && ("shift" in plus) == ("shift" in minus);
    var f := Forward(m, yaw, pitch);
    var rt := Right(m, yaw, pitch);
    var t2 := KeyPair(target, f.Times(MoveSpeed), f.Times(-MoveSpeed), "w" in keys, "s" in keys);
    PairCancels(t2, rt.Times(-MoveSpeed), rt.Times(MoveSpeed));
  }

  lemma VerticalKeysCancel(m: Math, target: Vec3, yaw: real, pitch: real, keys: set<string>)
    ensures KeyMotion(m, target, yaw, pitch, keys + {" ", "shift"})
         == KeyMotion(m, target, yaw, pitch, keys - {" ", "shift"})
  {
    var plus, minus := keys + {" ", "shift"}, keys - {" ", "shift"};
    assert ("w" in plus) == ("w" in minus) && ("s" in plus) == ("s" in minus);
    assert ("a" in plus) == ("a" in minus) && ("d" in plus) == ("d" in minus);
    var f := Forward(m, yaw, pitch);
    var rt := Right(m, yaw, pitch);
    var t2 := KeyPair(target, f.Times(MoveSpeed), f.Times(-MoveSpeed), "w" in keys, "s" in keys);
    var t4 := KeyPair(t2, rt.Times(-MoveSpeed), rt.Times(MoveSpeed), "a" in keys, "d" in keys);
    PairCancels(t4, Vec3(0.0, MoveSpeed, 0.0), Vec3(0.0, -MoveSpeed, 0.0));
  }

  /** Two opposite steps held together add nothing. */
  lemma PairCancels(t: Vec3, first: Vec3, second: Vec3)
    requires first.x + second.x == 0.0 && first.y + second.y == 0.0 && first.z + second.z == 0.0
    ensures KeyPair(t, first, second, true, true) == KeyPair(t, first, second, false, false)
  {
  }

  /** Forward and strafe motion stay level: if `normalize` keeps horizontal
      vectors horizontal, only space and shift change the target's height,
      by exactly one step each. */
  lemma LevelFlight(m: Math, target: Vec3, yaw: real, pitch: real, keys: set<string>)
    requires forall v: Vec3 :: v.y == 0.0 ==> m.normalize(v).y == 0.0
    ensures KeyMotion(m, target, yaw, pitch, keys).y
         == target.y + (if " " in keys then MoveSpeed else 0.0) - (if "shift" in keys then MoveSpeed else 0.0)
  {
    var raw := Vec3(m.cos(pitch) * m.sin(yaw), 0.0, m.cos(pitch) * m.cos(yaw));
    assert Forward(m, yaw, pitch).y == 0.0 by { assert raw.y == 0.0; }
    assert Cross(Forward(m, yaw, pitch), Up).y == 0.0;
  }

  /** Holding `w` for one frame at yaw = pi, pitch = 0 moves the target one
      step toward -z: `cos(0) cos(pi) = -1`. */
  lemma ForwardAtYawPi(m: Math, c: Cam)
    requires m.sin(Pi) == 0.0 && m.cos(Pi) == -1.0 && m.cos(0.0) == 1.0
    requires m.normalize(Vec3(0.0, 0.0, -1.0)) == Vec3(0.0, 0.0, -1.0)
    requires c.yaw == Pi && c.pitch == 0.0
    requires InCube(c.target) && c.target.z - MoveSpeed >= -CubeLimit
    ensures MoveCamera(m, c, {"w"}).target == c.target.Plus(Vec3(0.0, 0.0, -MoveSpeed))
  {
    assert Forward(m, Pi, 0.0) == Vec3(0.0, 0.0, -1.0) by {
      assert Vec3(m.cos(0.0) * m.sin(Pi), 0.0, m.cos(0.0) * m.cos(Pi)) == Vec3(0.0, 0.0, -1.0);
    }
  }

  /** Moving the target along the view direction by `amount` and clamping
      it: the wheel and pinch handlers. */
  function Zoom(m: Math, c: Cam, amount: real): (r: Cam)
    ensures InCube(r.target)
    ensures r.pos == c.pos && r.yaw == c.yaw && r.pitch == c.pitch
    ensures var moved := c.target.Plus(LookDir(m, c.yaw, c.pitch).Times(amount));
            InCube(moved) ==> r.target == moved
    ensures amount == 0.0 && InCube(c.target) ==> r == c
    ensures r.target == ClampToCube(c.target.Plus(LookDir(m, c.yaw, c.pitch).Times(amount)))
  {
    var d := LookDir(m, c.yaw, c.pitch);
    var moved := c.target.Plus(d.Times(amount));
    assert amount == 0.0 ==> moved == c.target by {
      if amount == 0.0 {
        assert d.x * amount == 0.0 && d.y * amount == 0.0 && d.z * amount == 0.0;
      }
    }
    c.(target := ClampToCube(moved))
  }

  /** Looking along `+z` from the origin, a zoom of `k` that stays in the
      cube moves the target to `(0, 0, k)`. */
  lemma ZoomFromOrigin(m: Math, c: Cam, k: real)
    requires LookDir(m, c.yaw, c.pitch) == Vec3(0.0, 0.0, 1.0)
    requires c.target == Vec3(0.0, 0.0, 0.0) && InRange(k)
    ensures Zoom(m, c, k).target == Vec3(0.0, 0.0, k)
  {
    StepFromOrigin(c.target, LookDir(m, c.yaw, c.pitch), k);
  }

  /** At yaw 0 and pitch 0 the view direction is `+z`. */
  lemma LookDirAtZero(m: Math)
    requires m.sin(0.0) == 0.0 && m.cos(0.0) == 1.0
    ensures LookDir(m, 0.0, 0.0) == Vec3(0.0, 0.0, 1.0)
  {
  }

  /** A step of `k` along `+z` from the origin ends at `(0, 0, k)`. */
  lemma StepFromOrigin(t: Vec3, d: Vec3, k: real)
    requires t == Vec3(0.0, 0.0, 0.0) && d == Vec3(0.0, 0.0, 1.0)
    ensures t.Plus(d.Times(k)) == Vec3(0.0, 0.0, k)
  {
  }

  /** The wheel handler: `zoomAmount = -deltaY * 0.005`. */
  function WheelZoom(m: Math, c: Cam, deltaY: real): (r: Cam)
    ensures InCube(r.target)
    ensures r.pos == c.pos && r.yaw == c.yaw && r.pitch == c.pitch
    ensures var moved := c.target.Plus(LookDir(m, c.yaw, c.pitch).Times(-deltaY * WheelSpeed));
            InCube(moved) ==> r.target == moved
    ensures r.target == ClampToCube(c.target.Plus(LookDir(m, c.yaw, c.pitch).Times(-deltaY * WheelSpeed)))
  {
    Zoom(m, c, -deltaY * WheelSpeed)
  }

  /** A wheel notch of `deltaY = -100` zooms half a unit forward. */
  lemma WheelNotch(m: Math, c: Cam)
    ensures WheelZoom(m, c, -100.0) == Zoom(m, c, 0.5)
  {
  }

  /** The camera pose `updateCamera` hands to the renderer. */
  datatype Pose = Pose(position: Vec3, lookAt: Vec3)

  /** `updateCamera`: place the camera at the position, looking at
      `position + LookDir`. */
  function UpdateCamera(m: Math, c: Cam): (r: Pose)
    ensures r.position == c.pos
    ensures r.lookAt.Minus(r.position) == LookDir(m, c.yaw, c.pitch)
  {
    Pose(c.pos, c.pos.Plus(LookDir(m, c.yaw, c.pitch)))
  }

  /** The camera looks one unit ahead: when `sin^2 + cos^2 = 1` holds at the
      yaw and the pitch, the look-at point is at distance 1 from the
      position. */
  lemma UpdateCameraUnitLook(m: Math, c: Cam)
    requires m.sin(c.yaw) * m.sin(c.yaw) + m.cos(c.yaw) * m.cos(c.yaw) == 1.0
    requires m.sin(c.pitch) * m.sin(c.pitch) + m.cos(c.pitch) * m.cos(c.pitch) == 1.0
    ensures UpdateCamera(m, c).lookAt.Minus(c.pos).NormSquared() == 1.0
  {
    var sy, cy, sp, cp := m.sin(c.yaw), m.cos(c.yaw), m.sin(c.pitch), m.cos(c.pitch);
    var d := LookDir(m, c.yaw, c.pitch);
    calc {
      d.NormSquared();
      (cp * sy) * (cp * sy) + sp * sp + (cp * cy) * (cp * cy);
      (cp * cp) * (sy * sy + cy * cy) + sp * sp;
      cp * cp + sp * sp;
      1.0;
    }
  }

  /** The starting target lies on the box's face, outside the clamping cube;
      the first `moveCamera` pulls it in to `z = 9.5`. */
  lemma InitialTargetOutsideCube(m: Math)
    ensures !InCube(Initial.target)
    ensures MoveCamera(m, Initial, {}).target == Vec3(0.0, 0.0, CubeLimit)
  {
  }
}

=== FILE: controls.dfy ===
/** The shared controller module used by the relief scene: one camera, an
    optional draggable sphere named `mainSphere`, and handlers for keyboard,
    mouse, wheel and touch input, including the one-finger-rotate versus
    two-finger-pinch gesture machine. */
module Controls {
  import opened Basics
  import opened Input
  import opened Camera
  import Orientation
  import opened Manipulation
  import opened Displacement

  /** Radius the sphere's vertices are re-projected to. */
  const SphereRadius: real := 3.0

  /** The sphere found by name, with its rotation and its position buffers. */
  datatype SphereMesh = SphereMesh(rotation: Angles, base: seq<real>, live: seq<real>)

  predicate SphereValid(m: Math, sp: SphereMesh) {
    NonDegenerate(m, sp.base) && |sp.live| == |sp.base|
  }

  /** The module-level state of the controller. */
  datatype Controls = Controls(
    cam: Cam,
    dragging: bool,                // isDraggingSphere
    lastMouse: Point2,
    mousePos: Point2,
    lastTouchDist: Option<real>,
    lastTouchMid: Option<Point2>,
    touchRotating: bool,           // isTouchRotating
    keys: set<string>,
    sphere: Option<SphereMesh>)

  /** The state after `setupControls` in a viewport of the given size: the
      starting camera, the pointer at the viewport's centre, no key held, no
      gesture in progress and no pinch baseline. */
  function Setup(sphere: Option<SphereMesh>, width: real, height: real): (r: Controls)
    ensures r.cam == Initial && r.sphere == sphere && r.keys == {}
    ensures r.lastMouse == Point2(0.0, 0.0)
    ensures r.mousePos == Point2(width / 2.0, height / 2.0)
    ensures !r.dragging && !r.touchRotating && r.lastTouchDist.None? && r.lastTouchMid.None?
  {
    Controls(Initial, false, Point2(0.0, 0.0), Point2(width / 2.0, height / 2.0),
             None, None, false, {}, sphere)
  }

  /** Distance between the first two touches. The helpers `getTouchDist`
      and `getTouchMidpoint` are not part of this model; they are taken to be
      the Euclidean distance and the arithmetic midpoint. */
  function TouchDist(m: Math, ts: seq<Point2>): real
    requires |ts| >= 2
  {
    var dx := ts[1].x - ts[0].x;
    var dy := ts[1].y - ts[0].y;
    m.sqrt(dx * dx + dy * dy)
  }

  function TouchMid(ts: seq<Point2>): Point2
    requires |ts| >= 2
  {
    Point2((ts[0].x + ts[1].x) / 2.0, (ts[0].y + ts[1].y) / 2.0)
  }

  /** `mousedown` on the canvas. */
  function OnMouseDown(s: Controls, x: real, y: real): (r: Controls)
    ensures r.dragging && r.lastMouse == Point2(x, y)
    ensures r.(dragging := s.dragging, lastMouse := s.lastMouse) == s
  {
    s.(dragging := true, lastMouse := Point2(x, y))
  }

  /** `mousemove` on the canvas: record the pointer, then either drag the
      sphere (while the button is down and a sphere exists) or orbit the
      camera. */
  function OnMouseMove(s: Controls, e: MouseEvt): (r: Controls)
    ensures r.mousePos == Point2(e.clientX, e.clientY) && r.lastMouse == Point2(e.clientX, e.clientY)
    ensures s.dragging && s.sphere.Some? ==>
              r.cam == s.cam && r.sphere.Some?
              && r.sphere.value.rotation.y == s.sphere.value.rotation.y + (e.clientX - s.lastMouse.x) * MouseDragSensitivity
              && Tilted(r.sphere.value.rotation.x)
              && r.sphere.value.rotation.x
                 == ClampTilt(s.sphere.value.rotation.x + (e.clientY - s.lastMouse.y) * MouseDragSensitivity)
              && r.sphere.value.(rotation := s.sphere.value.rotation) == s.sphere.value
    ensures !(s.dragging && s.sphere.Some?) ==>
              r.sphere == s.sphere
              && s.cam.yaw - r.cam.yaw == MovementOr(e.movementX, e.clientX, s.lastMouse.x) * Orientation.OrbitSensitivity
              && r.cam.pitch >= -PitchLimit
              && r.cam == Orientation.Orbit(s.cam, MovementOr(e.movementX, e.clientX, s.lastMouse.x),
                                            MovementOr(e.movementY, e.clientY, s.lastMouse.y))
    ensures r.cam.target == s.cam.target && r.cam.pos == s.cam.pos
    ensures r.dragging == s.dragging && r.touchRotating == s.touchRotating && r.keys == s.keys
    ensures r.(cam := s.cam, sphere := s.sphere, mousePos := s.mousePos, lastMouse := s.lastMouse) == s
  {
    var s1 := s.(mousePos := Point2(e.clientX, e.clientY));
    if s1.dragging && s1.sphere.Some? then
      var sp := s1.sphere.value;
      var rot := Drag(sp.rotation, e.clientX - s1.lastMouse.x, e.clientY - s1.lastMouse.y, MouseDragSensitivity);
      s1.(sphere := Some(sp.(rotation := rot)), lastMouse := Point2(e.clientX, e.clientY))
    else
      var dx := MovementOr(e.movementX, e.clientX, s1.lastMouse.x);
      var dy := MovementOr(e.movementY, e.clientY, s1.lastMouse.y);
      s1.(cam := Orientation.Orbit(s1.cam, dx, dy), lastMouse := Point2(e.clientX, e.clientY))
  }

  /** `touchstart`: one contact starts a rotation; two contacts cancel it
      and record the pinch baseline; any other count changes nothing. */
  function OnTouchStart(m: Math, s: Controls, ts: seq<Point2>): (r: Controls)
    ensures |ts| == 1 ==> r == s.(touchRotating := true, lastMouse := ts[0])
    ensures |ts| == 2 ==>
              r == s.(touchRotating := false, lastTouchDist := Some(TouchDist(m, ts)),
                      lastTouchMid := Some(TouchMid(ts)))
    ensures |ts| != 1 && |ts| != 2 ==> r == s
    ensures r.cam == s.cam && r.sphere == s.sphere
  {
    if |ts| == 1 then
      s.(touchRotating := true, lastMouse := ts[0])
    else if |ts| == 2 then
      s.(touchRotating := false, lastTouchDist := Some(TouchDist(m, ts)), lastTouchMid := Some(TouchMid(ts)))
    else
      s
  }

  /** The pinch baseline as the subtraction `newDist - lastTouchDist` sees
      it: JavaScript coerces a `null` operand to 0. */
  function Baseline(d: Option<real>): real {
    if d.Some? then d.value else 0.0
  }

  /** The zoom a two-finger move applies along the view direction. */
  function PinchDelta(m: Math, s: Controls, ts: seq<Point2>): real
    requires |ts| >= 2
  {
    (TouchDist(m, ts) - Baseline(s.lastTouchDist)) * PinchSpeed
  }

  /** `touchmove`: one contact rotates the sphere (only while a rotation is
      live and a sphere exists), at twice the mouse sensitivity; two contacts
      pinch-zoom; anything else changes nothing. */
  function OnTouchMove(m: Math, s: Controls, ts: seq<Point2>): (r: Controls)
    ensures |ts| == 1 && s.touchRotating && s.sphere.Some? ==>
              r.cam == s.cam && r.sphere.Some?
              && r.sphere.value.rotation.y == s.sphere.value.rotation.y + (ts[0].x - s.lastMouse.x) * TouchDragSensitivity
              && Tilted(r.sphere.value.rotation.x)
              && r.sphere.value.rotation.x
                 == ClampTilt(s.sphere.value.rotation.x + (ts[0].y - s.lastMouse.y) * TouchDragSensitivity)
              && r.lastMouse == ts[0] && r.mousePos == ts[0]
              && r.sphere.value.(rotation := s.sphere.value.rotation) == s.sphere.value
              && r.(sphere := s.sphere, lastMouse := s.lastMouse, mousePos := s.mousePos) == s
    ensures |ts| == 2 ==>
              r.cam == Zoom(m, s.cam, PinchDelta(m, s, ts)) && r.sphere == s.sphere
              && r.lastTouchDist == Some(TouchDist(m, ts)) && r.lastTouchMid == Some(TouchMid(ts))
              && r.mousePos == TouchMid(ts)
              && r.(cam := s.cam, lastTouchDist := s.lastTouchDist, lastTouchMid := s.lastTouchMid,
                    mousePos := s.mousePos) == s
    ensures !(|ts| == 1 && s.touchRotating && s.sphere.Some?) && |ts| != 2 ==> r == s
    ensures r.touchRotating == s.touchRotating && r.dragging == s.dragging
  {
    if |ts| == 1 && s.touchRotating && s.sphere.Some? then
      var sp := s.sphere.value;
      var dy := ts[0].y - s.lastMouse.y;
      var rot := Drag(sp.rotation, ts[0].x - s.lastMouse.x, dy, TouchDragSensitivity);
      assert rot.x == ClampTilt(sp.rotation.x + dy * TouchDragSensitivity);
      s.(sphere := Some(sp.(rotation := rot)), lastMouse := ts[0], mousePos := ts[0])
    else if |ts| == 2 then
      var newDist := TouchDist(m, ts);
      var newMid := TouchMid(ts);
      s.(cam := Zoom(m, s.cam, PinchDelta(m, s, ts)),
         lastTouchDist := Some(newDist), lastTouchMid := Some(newMid), mousePos := newMid)
    else
      s
  }

  /** `touchstart` as written when `getTouchDist` is not defined: the
      two-contact branch clears the rotation flag, then the call fails and
      the handler stops, so no baseline is recorded. */
  function OnTouchStartAsWritten(s: Controls, ts: seq<Point2>): (r: Controls)
    ensures |ts| == 1 ==> r == s.(touchRotating := true, lastMouse := ts[0])
    ensures |ts| == 2 ==> r == s.(touchRotating := false)
    ensures |ts| != 1 && |ts| != 2 ==> r == s
  {
    if |ts| == 1 then s.(touchRotating := true, lastMouse := ts[0])
    else if |ts| == 2 then s.(touchRotating := false)
    else s
  }

  /** `touchmove` as written when `getTouchDist` is not defined: the
      two-contact branch fails on its first statement, so nothing changes. */
  function OnTouchMoveAsWritten(m: Math, s: Controls, ts: seq<Point2>): (r: Controls)
    ensures |ts| == 2 ==> r == s
    ensures |ts| != 2 ==> r == OnTouchMove(m, s, ts)
  {
    if |ts| == 2 then s else OnTouchMove(m, s, ts)
  }

  /** The pinch is lost as written: two fingers 10 px apart spreading to
      20 px with the camera at yaw 0 and pitch 0 zoom the target 0.1 forward
      with the helpers defined, and not at all without them. */
  lemma PinchLostAsWritten(m: Math, s: Controls)
    requires m.sin(0.0) == 0.0 && m.cos(0.0) == 1.0
    requires m.sqrt(100.0) == 10.0 && m.sqrt(400.0) == 20.0
    requires s.cam.target == Vec3(0.0, 0.0, 0.0) && s.cam.yaw == 0.0 && s.cam.pitch == 0.0
    ensures OnTouchMove(m, OnTouchStart(m, s, [Point2(0.0, 0.0), Point2(10.0, 0.0)]),
                        [Point2(0.0, 0.0), Point2(20.0, 0.0)]).cam.target == Vec3(0.0, 0.0, 0.1)
    ensures OnTouchMoveAsWritten(m, OnTouchStartAsWritten(s, [Point2(0.0, 0.0), Point2(10.0, 0.0)]),
                                 [Point2(0.0, 0.0), Point2(20.0, 0.0)]).cam == s.cam
  {
    PinchStartRecords(m, s);
    PinchSpreadZooms(m, OnTouchStart(m, s, [Point2(0.0, 0.0), Point2(10.0, 0.0)]));
  }

  /** Two fingers put down 10 px apart record a baseline of 10. */
  lemma PinchStartRecords(m: Math, s: Controls)
    requires m.sqrt(100.0) == 10.0
    ensures var s1 := OnTouchStart(m, s, [Point2(0.0, 0.0), Point2(10.0, 0.0)]);
            s1.cam == s.cam && s1.lastTouchDist == Some(10.0)
  {
    var start := [Point2(0.0, 0.0), Point2(10.0, 0.0)];
    assert start[1].x - start[0].x == 10.0 && start[1].y - start[0].y == 0.0;
    assert TouchDist(m, start) == 10.0;
  }

  /** From a baseline of 10, a spread to 20 px at yaw 0 and pitch 0 moves a
      target at the origin 0.1 along z. */
  lemma PinchSpreadZooms(m: Math, s: Controls)
    requires m.sin(0.0) == 0.0 && m.cos(0.0) == 1.0 && m.sqrt(400.0) == 20.0
    requires s.cam.target == Vec3(0.0, 0.0, 0.0) && s.cam.yaw == 0.0 && s.cam.pitch == 0.0
    requires s.lastTouchDist == Some(10.0)
    ensures OnTouchMove(m, s, [Point2(0.0, 0.0), Point2(20.0, 0.0)]).cam.target == Vec3(0.0, 0.0, 0.1)
  {
    var spread := [Point2(0.0, 0.0), Point2(20.0, 0.0)];
    assert spread[1].x - spread[0].x == 20.0 && spread[1].y - spread[0].y == 0.0;
    assert TouchDist(m, spread) == 20.0;
    assert PinchDelta(m, s, spread) == 0.1;
    LookDirAtZero(m);
    ZoomFromOrigin(m, s.cam, 0.1);
  }

  /** `touchend`: lifting the last contact ends every gesture; while
      contacts remain nothing changes. */
  function OnTouchEnd(s: Controls, ts: seq<Point2>): (r: Controls)
    ensures |ts| == 0 ==> !r.touchRotating && r.lastTouchDist.None? && r.lastTouchMid.None?
    ensures |ts| == 0 ==> r.(touchRotating := s.touchRotating, lastTouchDist := s.lastTouchDist,
                              lastTouchMid := s.lastTouchMid) == s
    ensures |ts| > 0 ==> r == s
  {
    if |ts| == 0 then s.(touchRotating := false, lastTouchDist := None, lastTouchMid := None)
    else s
  }

  /** One input event, routed as `setupControls` wires its listeners: keys
      and the wheel on the window, mouse and touch on the canvas. */
  function Handle(m: Math, s: Controls, e: Event): (r: Controls)
    ensures e.KeyDown? ==> Lower(e.key) in r.keys && r.keys == PressKey(s.keys, e.key) && r.(keys := s.keys) == s
    ensures e.KeyUp? ==> Lower(e.key) !in r.keys && r.keys == ReleaseKey(s.keys, e.key) && r.(keys := s.keys) == s
    ensures e.MouseDown? ==> r.dragging && r.lastMouse == Point2(e.x, e.y)
                             && r.(dragging := s.dragging, lastMouse := s.lastMouse) == s
    ensures e.MouseUp? || e.MouseLeave? ==> !r.dragging && r.(dragging := s.dragging) == s
    ensures e.MouseMove? ==> r == OnMouseMove(s, e.e)
    ensures e.Wheel? ==> r.cam == WheelZoom(m, s.cam, e.deltaY) && r.(cam := s.cam) == s
    ensures e.TouchStart? ==> r == OnTouchStart(m, s, e.touches)
    ensures e.TouchMove? ==> r == OnTouchMove(m, s, e.touches)
    ensures e.TouchEnd? ==> r == OnTouchEnd(s, e.touches)
  {
    match e
    case KeyDown(k) => s.(keys := PressKey(s.keys, k))
    case KeyUp(k) => s.(keys := ReleaseKey(s.keys, k))
    case MouseDown(x, y) => OnMouseDown(s, x, y)
    case MouseUp => s.(dragging := false)
    case MouseLeave => s.(dragging := false)
    case MouseMove(ev) => OnMouseMove(s, ev)
    case Wheel(dy) => s.(cam := WheelZoom(m, s.cam, dy))
    case TouchStart(ts) => OnTouchStart(m, s, ts)
    case TouchMove(ts) => OnTouchMove(m, s, ts)
    case TouchEnd(ts) => OnTouchEnd(s, ts)
  }

  /** Events delivered in order. */
  function Run(m: Math, s: Controls, evs: seq<Event>): Controls
    decreases |evs|
  {
    if |evs| == 0 then s else Run(m, Handle(m, s, evs[0]), evs[1..])
  }

  /** No event can take the position target out of the cube. */
  lemma HandleKeepsTargetInCube(m: Math, s: Controls, e: Event)
    requires InCube(s.cam.target)
    ensures InCube(Handle(m, s, e).cam.target)
  {
  }

  /** Once inside the cube the target stays inside it, whatever the input. */
  lemma {:induction false} RunKeepsTargetInCube(m: Math, s: Controls, evs: seq<Event>)
    requires InCube(s.cam.target)
    ensures InCube(Run(m, s, evs).cam.target)
    decreases |evs|
  {
    if |evs| > 0 {
      HandleKeepsTargetInCube(m, s, evs[0]);
      RunKeepsTargetInCube(m, Handle(m, s, evs[0]), evs[1..]);
    }
  }

  predicate IsTouch(e: Event) {
    e.TouchStart? || e.TouchMove? || e.TouchEnd?
  }

  /** A `touchstart` with exactly one contact: the only event that arms a
      touch rotation. */
  predicate FreshOneTouchStart(e: Event) {
    e.TouchStart? && |e.touches| == 1
  }

  /** Touch input alone never turns a rotation back on without a fresh
      one-contact `touchstart`: a finger left over from a pinch does not
      rotate the sphere. */
  lemma {:induction false} NoRotationWithoutFreshStart(m: Math, s: Controls, evs: seq<Event>)
    requires !s.touchRotating
    requires forall i :: 0 <= i < |evs| ==> IsTouch(evs[i]) && !FreshOneTouchStart(evs[i])
    ensures !Run(m, s, evs).touchRotating
    ensures Run(m, s, evs).sphere == s.sphere
    decreases |evs|
  {
    if |evs| > 0 {
      RunNoRotationStep(m, s, evs[0]);
      NoRotationWithoutFreshStart(m, Handle(m, s, evs[0]), evs[1..]);
    }
  }

  lemma RunNoRotationStep(m: Math, s: Controls, e: Event)
    requires !s.touchRotating && IsTouch(e) && !FreshOneTouchStart(e)
    ensures !Handle(m, s, e).touchRotating && Handle(m, s, e).sphere == s.sphere
  {
  }

  /** Putting two fingers down cancels a one-finger rotation in progress:
      after it, touch input leaves the sphere's rotation alone until a fresh
      one-contact start. */
  lemma PinchCancelsRotation(m: Math, s: Controls, two: seq<Point2>, evs: seq<Event>)
    requires |two| == 2
    requires forall i :: 0 <= i < |evs| ==> IsTouch(evs[i]) && !FreshOneTouchStart(evs[i])
    ensures Run(m, s, [TouchStart(two)] + evs).sphere == s.sphere
  {
    var s1 := Handle(m, s, TouchStart(two));
    assert ([TouchStart(two)] + evs)[1..] == evs;
    NoRotationWithoutFreshStart(m, s1, evs);
  }

  /** The pinch zoom deltas of a run of two-finger moves. */
  function PinchTotal(m: Math, s: Controls, moves: seq<seq<Point2>>): real
    requires forall i :: 0 <= i < |moves| ==> |moves[i]| == 2
    decreases |moves|
  {
    if |moves| == 0 then 0.0
    else PinchDelta(m, s, moves[0]) + PinchTotal(m, OnTouchMove(m, s, moves[0]), moves[1..])
  }

  function PinchRun(m: Math, s: Controls, moves: seq<seq<Point2>>): Controls
    requires forall i :: 0 <= i < |moves| ==> |moves[i]| == 2
    decreases |moves|
  {
    if |moves| == 0 then s else PinchRun(m, OnTouchMove(m, s, moves[0]), moves[1..])
  }

  /** Each pinch move replaces the baseline by the new distance, so the zoom
      deltas of consecutive moves telescope to `0.01 (final - initial)`; with
      no baseline recorded, the initial distance reads as 0. */
  lemma {:induction false} PinchTelescopes(m: Math, s: Controls, moves: seq<seq<Point2>>)
    requires |moves| > 0
    requires forall i :: 0 <= i < |moves| ==> |moves[i]| == 2
    ensures PinchTotal(m, s, moves) == PinchSpeed * (TouchDist(m, moves[|moves| - 1]) - Baseline(s.lastTouchDist))
    ensures PinchRun(m, s, moves).lastTouchDist == Some(TouchDist(m, moves[|moves| - 1]))
    decreases |moves|
  {
    var s1 := OnTouchMove(m, s, moves[0]);
    if |moves| > 1 {
      PinchTelescopes(m, s1, moves[1..]);
      assert moves[1..][|moves[1..]| - 1] == moves[|moves| - 1];
    }
  }

  /** `autoRotateViewByMousePosition` over the controller's state: suppressed
      while the mouse drags or a touch rotation is live. */
  function AutoRotate(s: Controls, width: real, height: real): (r: Controls)
    ensures s.dragging || s.touchRotating ==> r == s
    ensures r.cam.pos == s.cam.pos && r.cam.target == s.cam.target
    ensures !(s.dragging || s.touchRotating) ==> r.cam.pitch >= -PitchLimit
  {
    s.(cam := Orientation.AutoLook(s.cam, s.mousePos, width, height, s.dragging || s.touchRotating))
  }

  /** `moveCamera` over the controller's state: the held keys move the
      target, which is clamped into the cube, and the position eases toward
      it; nothing but the camera changes. */
  function Move(m: Math, s: Controls): (r: Controls)
    ensures InCube(r.cam.target)
    ensures InCube(s.cam.pos) ==> InCube(r.cam.pos)
    ensures r.cam.target == ClampToCube(KeyMotion(m, s.cam.target, s.cam.yaw, s.cam.pitch, s.keys))
    ensures r.cam.pos == Ease(s.cam.pos, r.cam.target)
    ensures r.cam.yaw == s.cam.yaw && r.cam.pitch == s.cam.pitch
    ensures r.(cam := s.cam) == s
  {
    s.(cam := MoveCamera(m, s.cam, s.keys))
  }

  /** `distortGeometry(time)`: nothing without a sphere; otherwise the live
      buffer is recomputed with radius 3 from the base buffer, which is kept. */
  function DistortGeometry(m: Math, s: Controls, time: real): (r: Controls)
    requires s.sphere.Some? ==> SphereValid(m, s.sphere.value)
    ensures s.sphere.None? ==> r == s
    ensures s.sphere.Some? ==>
              r.sphere.Some? && r.sphere.value.base == s.sphere.value.base
              && r.sphere.value.rotation == s.sphere.value.rotation
              && r.sphere.value.live == Displace(m, s.sphere.value.base, time, SphereRadius)
    ensures r.cam == s.cam
    ensures r.(sphere := s.sphere) == s
  {
    match s.sphere
    case None => s
    case Some(sp) => s.(sphere := Some(sp.(live := Displace(m, sp.base, time, SphereRadius))))
  }

  /** What one frame produces: the new state and the pose to render. */
  datatype Frame = Frame(state: Controls, pose: Pose)

  /** The first relief frame after set-up pulls the starting target onto the
      cube's face at `z = 9.5`; with the pointer at the centre of a viewport
      at least 300 px each way, auto-look leaves the orientation alone. */
  lemma SetupFirstTick(m: Math, sphere: Option<SphereMesh>, width: real, height: real)
    ensures ReliefTick(m, Setup(sphere, width, height), width, height).state.cam.target == Vec3(0.0, 0.0, CubeLimit)
    ensures width >= 300.0 && height >= 300.0 ==>
              ReliefTick(m, Setup(sphere, width, height), width, height).state.cam.yaw == Pi
              && ReliefTick(m, Setup(sphere, width, height), width, height).state.cam.pitch == 0.0
  {
    InitialTargetOutsideCube(m);
  }

  /** The relief scene's `animate`: `moveCamera`, then auto-look, then
      `updateCamera`. The keyboard step sees the orientation from before
      auto-look, and the rendered pose sees the orientation after it. */
  function ReliefTick(m: Math, s: Controls, width: real, height: real): (f: Frame)
    ensures InCube(f.state.cam.target)
    ensures f.state.cam.target == MoveCamera(m, s.cam, s.keys).target
    ensures f.state.cam.pos == Ease(s.cam.pos, f.state.cam.target)
    ensures s.dragging || s.touchRotating ==> f.state.cam.yaw == s.cam.yaw && f.state.cam.pitch == s.cam.pitch
    ensures !(s.dragging || s.touchRotating) ==>
              f.state.cam.yaw == s.cam.yaw + Orientation.EdgeNudge(s.mousePos.x, width)
              && f.state.cam.pitch == Orientation.ClampPitch(s.cam.pitch + Orientation.EdgeNudge(s.mousePos.y, height))
    ensures f.pose == UpdateCamera(m, f.state.cam)
    ensures f.state.(cam := s.cam) == s
  {
    var s1 := AutoRotate(Move(m, s), width, height);
    Frame(s1, UpdateCamera(m, s1.cam))
  }
}

=== FILE: cubescene.dfy ===
/** The cube scene: a distorting box mesh that rotates while the mouse drags
    it. This scene has no camera controls of its own. */
module CubeScene {
  import opened Basics
  import opened Input
  import opened Manipulation
  import opened Displacement

  /** `this.size`: the cube's edge length. */
  const Size: real := 6.0

  /** `EscenaCubo`: stored angles, the mesh's rotation, and the position
      buffers. */
  datatype Cube = Cube(angles: Angles, meshRotation: Angles, base: seq<real>, live: seq<real>)

  predicate CubeValid(m: Math, c: Cube) {
    NonDegenerate(m, c.base) && |c.live| == |c.base|
  }

  /** `EscenaCubo.rotate(dx, dy)`: accumulate both angles, clamp the tilt,
      and copy the angles onto the mesh. */
  function RotateCube(c: Cube, dx: real, dy: real): (r: Cube)
    ensures r.angles.y == c.angles.y + dx
    ensures Tilted(r.angles.x)
    ensures r.angles.x == ClampTilt(c.angles.x + dy)
    ensures r.meshRotation == r.angles
    ensures r.base == c.base && r.live == c.live
  {
    var a := Rotate(c.angles, dx, dy);
    c.(angles := a, meshRotation := a)
  }

  /** `rotate(0, 0)` on an in-range cube whose mesh already shows its angles
      changes nothing. */
  lemma RotateCubeZero(c: Cube)
    requires Tilted(c.angles.x) && c.meshRotation == c.angles
    ensures RotateCube(c, 0.0, 0.0) == c
  {
    RotateZeroIdentity(c.angles);
  }

  /** `EscenaCubo.distort(time)`: the whole live buffer is recomputed with
      radius `size / 2` from the base buffer, which is kept. */
  method Distort(m: Math, c: Cube, time: real) returns (r: Cube)
    requires CubeValid(m, c)
    ensures CubeValid(m, r)
    ensures r.base == c.base && r.angles == c.angles && r.meshRotation == c.meshRotation
    ensures r.live == Displace(m, c.base, time, Size / 2.0)
  {
    var live := DistortBuffer(m, c.base, c.live, time, Size / 2.0);
    r := c.(live := live);
  }

  /** The scene's closure state: the cube plus the drag flag. */
  datatype State = State(cube: Cube, dragging: bool, lastMouse: Point2)

  /** `cubeDragSensitivity`. */
  const DragSensitivity: real := 0.005

  /** One input event; only the canvas mouse listeners react. */
  function Handle(s: State, e: Event): (r: State)
    ensures e.MouseDown? ==> r.dragging && r == s.(dragging := true, lastMouse := Point2(e.x, e.y))
    ensures e.MouseUp? || e.MouseLeave? ==> !r.dragging && r == s.(dragging := false)
    ensures e.MouseMove? && !s.dragging ==> r == s
    ensures !(e.MouseDown? || e.MouseUp? || e.MouseLeave? || e.MouseMove?) ==> r == s
    ensures !(e.MouseDown? || e.MouseUp? || e.MouseLeave?) ==> r.dragging == s.dragging
    ensures !(e.MouseMove? && s.dragging) ==> r.cube == s.cube
    ensures e.MouseMove? && s.dragging ==>
              r.cube == RotateCube(s.cube, (e.e.clientX - s.lastMouse.x) * DragSensitivity,
                                   (e.e.clientY - s.lastMouse.y) * DragSensitivity)
              && r.lastMouse == Point2(e.e.clientX, e.e.clientY) && r.dragging
  {
    match e
    case MouseDown(x, y) => s.(dragging := true, lastMouse := Point2(x, y))
    case MouseUp => s.(dragging := false)
    case MouseLeave => s.(dragging := false)
    case MouseMove(ev) =>
      if s.dragging then
        var dx := ev.clientX - s.lastMouse.x;
        var dy := ev.clientY - s.lastMouse.y;
        s.(cube := RotateCube(s.cube, dx * DragSensitivity, dy * DragSensitivity),
           lastMouse := Point2(ev.clientX, ev.clientY))
      else s
    case _ => s
  }

  function Run(s: State, evs: seq<Event>): State
    decreases |evs|
  {
    if |evs| == 0 then s else Run(Handle(s, evs[0]), evs[1..])
  }

  /** Whether the button is held after `evs`, read off the last press or
      release among them; `held` when there is none. */
  function HeldAfter(held: bool, evs: seq<Event>): bool
    decreases |evs|
  {
    if |evs| == 0 then held
    else
      var e := evs[|evs| - 1];
      if e.MouseDown? then true
      else if e.MouseUp? || e.MouseLeave? then false
      else HeldAfter(held, evs[..|evs| - 1])
  }

  /** The drag flag after a run is exactly "the last press/release was a
      press". */
  lemma {:induction false} RunDragging(s: State, evs: seq<Event>)
    ensures Run(s, evs).dragging == HeldAfter(s.dragging, evs)
    decreases |evs|
  {
    if |evs| > 0 {
      var init := evs[..|evs| - 1];
      var last := evs[|evs| - 1];
      assert evs == init + [last];
      RunSnoc(s, init, last);
      RunDragging(s, init);
    }
  }

  lemma {:induction false} RunSnoc(s: State, evs: seq<Event>, e: Event)
    ensures Run(s, evs + [e]) == Handle(Run(s, evs), e)
    decreases |evs|
  {
    if |evs| == 0 {
      assert Run(Handle(s, e), []) == Handle(s, e);
    } else {
      assert (evs + [e])[1..] == evs[1..] + [e];
      RunSnoc(Handle(s, evs[0]), evs[1..], e);
    }
  }

  /** The cube rotates only between a `mousedown` and the next `mouseup` or
      `mouseleave`: with the button up and no press in the run, every mouse
      move leaves it alone. */
  lemma {:induction false} NoRotationWithoutPress(s: State, evs: seq<Event>)
    requires !s.dragging
    requires forall i :: 0 <= i < |evs| ==> !evs[i].MouseDown?
    ensures Run(s, evs).cube == s.cube && !Run(s, evs).dragging
    decreases |evs|
  {
    if |evs| > 0 {
      NoRotationWithoutPress(Handle(s, evs[0]), evs[1..]);
    }
  }

  /** The scene's `animate(time)`: distort with the time in seconds. */
  method Animate(m: Math, s: State, timeMs: real) returns (r: State)
    requires CubeValid(m, s.cube)
    ensures CubeValid(m, r.cube)
    ensures r.cube.live == Displace(m, s.cube.base, timeMs * 0.001, Size / 2.0)
    ensures r.cube.angles == s.cube.angles && r.dragging == s.dragging
    ensures r.(cube := s.cube) == s && r.cube.(live := s.cube.live) == s.cube
  {
    var t := timeMs * 0.001;
    var cube := Distort(m, s.cube, t);
    r := State(cube, s.dragging, s.lastMouse);
  }
}

=== FILE: displacement.dfy ===
/** The per-vertex "breathing" displacement: every frame the live vertex
    buffer is recomputed from the untouched base buffer and the time. Buffers
    are flat `x, y, z, x, y, z, ...` sequences, as in a three.js position
    attribute. */
module Displacement {
  import opened Basics

  /** Peak radial offset of the ripple. */
  const Amplitude: real := 0.3

  predicate WellFormed(buf: seq<real>) {
    |buf| % 3 == 0
  }

  /** Vertex `i` of a flat buffer. */
  function Vertex(buf: seq<real>, i: nat): Vec3
    requires 3 * i + 2 < |buf|
  {
    Vec3(buf[3 * i], buf[3 * i + 1], buf[3 * i + 2])
  }

  /** `Math.sqrt(x * x + y * y + z * z)`. */
  function Len(m: Math, v: Vec3): real {
    m.sqrt(v.NormSquared())
  }

  /** No base vertex has length zero, so the division in the formula is
      defined. Sphere, box and plane generators guarantee this. */
  predicate NonDegenerate(m: Math, base: seq<real>) {
    WellFormed(base) && forall i: nat :: i < |base| / 3 ==> Len(m, Vertex(base, i)) != 0.0
  }

  /** `0.3 * sin(pi x + t) * cos(pi y + t)`. */
  function Offset(m: Math, v: Vec3, time: real): real {
    Amplitude * m.sin(Pi * v.x + time) * m.cos(Pi * v.y + time)
  }

  /** One vertex re-projected to length `radius + offset`. */
  function Displaced(m: Math, v: Vec3, time: real, radius: real): Vec3
    requires Len(m, v) != 0.0
  {
    v.Times((radius + Offset(m, v, time)) / Len(m, v))
  }

  /** Coordinate `c` (0, 1, 2 for x, y, z) of a vector. */
  function Coord(v: Vec3, c: nat): real
    requires c < 3
  {
    if c == 0 then v.x else if c == 1 then v.y else v.z
  }

  /** Entry `3 i + c` of a flat buffer belongs to vertex `i`, coordinate `c`. */
  lemma FlatIndex(i: nat, c: nat)
    requires c < 3
    ensures (3 * i + c) / 3 == i && (3 * i + c) % 3 == c
  {
  }

  /** Entry `k` of the live buffer: coordinate `k % 3` of the displaced
      vertex `k / 3`. */
  function Entry(m: Math, base: seq<real>, time: real, radius: real, k: nat): real
    requires NonDegenerate(m, base) && k < |base|
  {
    var i := k / 3;
    assert 3 * i + 2 < |base| && i < |base| / 3;
    Coord(Displaced(m, Vertex(base, i), time, radius), k % 3)
  }

  /** The live buffer written out entry by entry. */
  function Buffer(m: Math, base: seq<real>, time: real, radius: real): seq<real>
    requires NonDegenerate(m, base)
  {
    seq(|base|, k requires 0 <= k < |base| => Entry(m, base, time, radius, k))
  }

  /** The three entries of vertex `i` of that buffer are the displaced
      vertex. */
  lemma BufferVertex(m: Math, base: seq<real>, time: real, radius: real, i: nat)
    requires NonDegenerate(m, base) && i < |base| / 3
    ensures 3 * i + 2 < |Buffer(m, base, time, radius)|
    ensures Vertex(Buffer(m, base, time, radius), i) == Displaced(m, Vertex(base, i), time, radius)
  {
    var r := Buffer(m, base, time, radius);
    FlatIndex(i, 0);
    FlatIndex(i, 1);
    FlatIndex(i, 2);
    assert r[3 * i] == Entry(m, base, time, radius, 3 * i);
    assert r[3 * i + 1] == Entry(m, base, time, radius, 3 * i + 1);
    assert r[3 * i + 2] == Entry(m, base, time, radius, 3 * i + 2);
  }

  /** The whole live buffer for time `time`: a reference definition, vertex
      by vertex. */
  function Displace(m: Math, base: seq<real>, time: real, radius: real): (r: seq<real>)
    requires NonDegenerate(m, base)
    ensures |r| == |base|
    ensures forall i: nat {:trigger Vertex(r, i)} :: i < |base| / 3 ==> Vertex(r, i) == Displaced(m, Vertex(base, i), time, radius)
  {
    var r := Buffer(m, base, time, radius);
    forall i: nat | i < |base| / 3
      ensures 3 * i + 2 < |r| && Vertex(r, i) == Displaced(m, Vertex(base, i), time, radius)
    {
      BufferVertex(m, base, time, radius, i);
    }
    r
  }

  /** Two well-formed buffers with the same vertices are the same buffer. */
  lemma SameVertices(a: seq<real>, b: seq<real>)
    requires WellFormed(a) && |a| == |b|
    requires forall i: nat :: i < |a| / 3 ==> Vertex(a, i) == Vertex(b, i)
    ensures a == b
  {
    forall k | 0 <= k < |a|
      ensures a[k] == b[k]
    {
      var i: nat := k / 3;
      assert Vertex(a, i) == Vertex(b, i);
    }
  }

  /** The buffer with vertex `i` overwritten by `v`. */
  function SetVertex(buf: seq<real>, i: nat, v: Vec3): (r: seq<real>)
    requires 3 * i + 2 < |buf|
    ensures |r| == |buf|
    ensures Vertex(r, i) == v
    ensures forall j: nat :: 3 * j + 2 < |buf| && j != i ==> Vertex(r, j) == Vertex(buf, j)
  {
    buf[3 * i := v.x][3 * i + 1 := v.y][3 * i + 2 := v.z]
  }

  /** `out` already holds the displaced vertices below `i`. */
  predicate DoneBelow(m: Math, base: seq<real>, out: seq<real>, i: nat, time: real, radius: real)
    requires NonDegenerate(m, base) && |out| == |base| && i <= |base| / 3
  {
    forall j: nat :: j < i ==> Vertex(out, j) == Displaced(m, Vertex(base, j), time, radius)
  }

  /** Writing the displaced vertex `i` extends the finished prefix by one. */
  lemma DoneStep(m: Math, base: seq<real>, out: seq<real>, i: nat, time: real, radius: real)
    requires NonDegenerate(m, base) && |out| == |base| && i < |base| / 3
    requires DoneBelow(m, base, out, i, time, radius)
    ensures DoneBelow(m, base, SetVertex(out, i, Displaced(m, Vertex(base, i), time, radius)), i + 1, time, radius)
  {
  }

  /** A buffer with every vertex finished is the reference buffer. */
  lemma DoneAll(m: Math, base: seq<real>, out: seq<real>, time: real, radius: real)
    requires NonDegenerate(m, base) && |out| == |base|
    requires DoneBelow(m, base, out, |base| / 3, time, radius)
    ensures out == Displace(m, base, time, radius)
  {
    var d := Displace(m, base, time, radius);
    forall j: nat | j < |base| / 3
      ensures Vertex(out, j) == Vertex(d, j)
    {
    }
    SameVertices(out, d);
  }

  /** The loop body's arithmetic for one vertex `(x, y, z)`: length, offset,
      scale, and the scaled vertex. The result is parallel to the base
      vertex (their cross product vanishes) and, when `sqrt` is a true square
      root there, has length `radius + offset`. */
  method ScaleVertex(m: Math, x: real, y: real, z: real, time: real, radius: real) returns (v: Vec3)
    requires Len(m, Vec3(x, y, z)) != 0.0
    ensures v == Displaced(m, Vec3(x, y, z), time, radius)
    ensures Cross(v, Vec3(x, y, z)) == Vec3(0.0, 0.0, 0.0)
    ensures Len(m, Vec3(x, y, z)) > 0.0 && Len(m, Vec3(x, y, z)) * Len(m, Vec3(x, y, z)) == Vec3(x, y, z).NormSquared() ==>
              v.NormSquared() == (radius + Offset(m, Vec3(x, y, z), time)) * (radius + Offset(m, Vec3(x, y, z), time))
  {
    assert Vec3(x, y, z).NormSquared() == x * x + y * y + z * z;
    var len := m.sqrt(x * x + y * y + z * z);
    assert len == Len(m, Vec3(x, y, z));
    var offset := Amplitude * m.sin(Pi * x + time) * m.cos(Pi * y + time);
    assert offset == Offset(m, Vec3(x, y, z), time);
    var scale := (radius + offset) / len;
    v := Vec3(x * scale, y * scale, z * scale);
    ScaledParallel(Vec3(x, y, z), scale);
    if len > 0.0 && len * len == Vec3(x, y, z).NormSquared() {
      DisplacedLength(m, Vec3(x, y, z), time, radius);
    }
  }

  /** A multiple of a vector is parallel to it. */
  lemma ScaledParallel(u: Vec3, k: real)
    ensures Cross(u.Times(k), u) == Vec3(0.0, 0.0, 0.0)
  {
    assert (u.y * k) * u.z - (u.z * k) * u.y == 0.0;
    assert (u.z * k) * u.x - (u.x * k) * u.z == 0.0;
    assert (u.x * k) * u.y - (u.y * k) * u.x == 0.0;
  }

  /** `distortGeometry(time)` / `EscenaCubo.distort(time)`: the source's loop
      over vertices, overwriting `live` in place. The result is determined
      by `base` and `time` alone: every one of the `3 * vertexCount` entries
      of `live` is overwritten, so calling it twice with the same time yields
      the same buffer, and `base` is only read. */
  method DistortBuffer(m: Math, base: seq<real>, live: seq<real>, time: real, radius: real)
    returns (out: seq<real>)
    requires NonDegenerate(m, base)
    requires |live| == |base|
    ensures |out| == |live|
    ensures forall i: nat :: i < |base| / 3 ==> Vertex(out, i) == Displaced(m, Vertex(base, i), time, radius)
    ensures out == Displace(m, base, time, radius)
  {
    var vertexCount := |base| / 3;
    out := live;
    var i := 0;
    while i < vertexCount
      invariant 0 <= i <= vertexCount
      invariant |out| == |base|
      invariant DoneBelow(m, base, out, i, time, radius)
    {
      var ix := i * 3;
      var x := base[ix];
      var y := base[ix + 1];
      var z := base[ix + 2];
      assert Vertex(base, i) == Vec3(x, y, z);
      var v := ScaleVertex(m, x, y, z, time, radius);
      DoneStep(m, base, out, i, time, radius);
      out := SetVertex(out, i, v);
      i := i + 1;
    }
    DoneAll(m, base, out, time, radius);
  }

  /** The displacement is radial with length `radius + offset`: when `sqrt`
      behaves as a square root at the vertex, the displaced vertex's squared
      length is `(radius + offset)^2`. */
  lemma DisplacedLength(m: Math, v: Vec3, time: real, radius: real)
    requires Len(m, v) > 0.0
    requires Len(m, v) * Len(m, v) == v.NormSquared()
    ensures Displaced(m, v, time, radius).NormSquared()
         == (radius + Offset(m, v, time)) * (radius + Offset(m, v, time))
  {
    var len := Len(m, v);
    var k := radius + Offset(m, v, time);
    var s := k / len;
    assert s * len == k;
    var d := Displaced(m, v, time, radius);
    assert d == v.Times(s);
    calc {
      d.NormSquared();
      (v.x * s) * (v.x * s) + (v.y * s) * (v.y * s) + (v.z * s) * (v.z * s);
      (s * s) * v.NormSquared();
      (s * s) * (len * len);
      (s * len) * (s * len);
      k * k;
    }
  }

  /** With `sin` and `cos` inside `[-1, 1]` the offset stays within
      `[-0.3, 0.3]`. */
  lemma OffsetBounded(m: Math, v: Vec3, time: real)
    requires -1.0 <= m.sin(Pi * v.x + time) <= 1.0
    requires -1.0 <= m.cos(Pi * v.y + time) <= 1.0
    ensures -Amplitude <= Offset(m, v, time) <= Amplitude
  {
    var s := m.sin(Pi * v.x + time);
    var c := m.cos(Pi * v.y + time);
    assert -1.0 <= s * c <= 1.0 by {
      if s >= 0.0 {
        assert s * c <= s * 1.0 && s * c >= s * -1.0;
      } else {
        assert s * c <= -s && s * c >= s;
      }
    }
    assert Offset(m, v, time) == Amplitude * (s * c);
  }

  /** The vertex `(3, 0, 0)` of a radius-3 mesh at time 0 stays where it is:
      `sin(3 pi) = 0` makes the offset vanish. */
  lemma StillVertexAtTimeZero(m: Math)
    requires m.sin(Pi * 3.0) == 0.0 && m.sqrt(9.0) == 3.0
    ensures Displaced(m, Vec3(3.0, 0.0, 0.0), 0.0, 3.0) == Vec3(3.0, 0.0, 0.0)
  {
    var v := Vec3(3.0, 0.0, 0.0);
    assert v.NormSquared() == 9.0;
    assert Offset(m, v, 0.0) == 0.0;
  }
}

=== FILE: input.dfy ===
/** Raw input as the host delivers it, and the held-key set every scene
    shares. */
module Input {
  import opened Basics

  /** The fields of a DOM `MouseEvent` the handlers read. */
  datatype MouseEvt = MouseEvt(clientX: real, clientY: real, movementX: real, movementY: real)

  /** One DOM event, in delivery order. Touch events carry `e.touches`: the
      contacts still on the surface after the event. */
  datatype Event =
    | KeyDown(key: string)
    | KeyUp(key: string)
    | MouseDown(x: real, y: real)
    | MouseUp
    | MouseLeave
    | MouseMove(e: MouseEvt)
    | Wheel(deltaY: real)
    | TouchStart(touches: seq<Point2>)
    | TouchMove(touches: seq<Point2>)
    | TouchEnd(touches: seq<Point2>)

  /** `String.prototype.toLowerCase` on one character, for ASCII letters. */
  function LowerChar(c: char): char {
    if 'A' <= c <= 'Z' then (c as int + 32) as char else c
  }

  /** `e.key.toLowerCase()`, for ASCII letters. */
  function Lower(s: string): string {
    seq(|s|, i requires 0 <= i < |s| => LowerChar(s[i]))
  }

  /** The `keydown` listener: `keys[e.key.toLowerCase()] = true`. */
  function PressKey(keys: set<string>, key: string): (r: set<string>)
    ensures Lower(key) in r
    ensures r - {Lower(key)} == keys - {Lower(key)}
  {
    keys + {Lower(key)}
  }

  /** The `keyup` listener: `keys[e.key.toLowerCase()] = false`. */
  function ReleaseKey(keys: set<string>, key: string): (r: set<string>)
    ensures Lower(key) !in r
    ensures r + {Lower(key)} == keys + {Lower(key)}
  {
    keys - {Lower(key)}
  }

  /** Releasing a key that was pressed while up restores the key set, and
      the letter's case does not matter: `Shift` and `shift` are one key. */
  lemma PressReleaseRoundTrip(keys: set<string>, down: string, up: string)
    requires Lower(down) !in keys
    requires Lower(up) == Lower(down)
    ensures ReleaseKey(PressKey(keys, down), up) == keys
  {
  }

  /** The orbit handlers' `e.movementX || e.clientX - lastMouse.x`: the
      browser's movement when it is non-zero, otherwise the difference to
      the last recorded pointer position. */
  function MovementOr(movement: real, client: real, last: real): real {
    if movement != 0.0 then movement else client - last
  }
}

=== FILE: mainscene.dfy ===
/** The two scenes built inline by the entry module: a distorting sphere and
    a flat square, each with its own camera, drag state and object angles,
    sharing the window-wide key set and pointer position. One `MouseMove`
    event stands for a move over the canvas, which both the window listener
    (recording the pointer) and the canvas listener (drag or orbit) see. */
module MainScene {
  import opened Basics
  import opened Input
  import opened Camera
  import Orientation
  import opened Manipulation
  import opened Displacement

  /** `sphereRadius`, the radius the sphere scene's vertices are pushed to. */
  const SphereRadius: real := 3.0

  /** The animation callback's millisecond timestamp is scaled to seconds. */
  const SecondsPerMs: real := 0.001

  /** The sphere scene owns a deformable mesh; the square scene does not
      distort its plane. */
  datatype Kind = SphereScene(base: seq<real>, live: seq<real>) | SquareScene

  /** The closure state of one scene plus the shared input state. */
  datatype Scene = Scene(
    kind: Kind,
    cam: Cam,
    angles: Angles,          // sphereAngleX/Y or planeAngleX/Y
    meshRotation: Angles,    // the mesh's rotation.x/y
    dragging: bool,          // isDraggingSphere / isDraggingPlane
    lastMouse: Point2,
    mousePos: Point2,
    keys: set<string>)

  predicate Valid(m: Math, s: Scene) {
    s.kind.SphereScene? ==> NonDegenerate(m, s.kind.base) && |s.kind.live| == |s.kind.base|
  }

  /** A freshly built scene in a viewport of the given size: the starting
      camera, zero object angles shown by the mesh, no drag, no key held and
      the pointer at the viewport's centre. */
  function Create(kind: Kind, width: real, height: real): (r: Scene)
    ensures r.kind == kind && r.cam == Initial
    ensures r.angles == Angles(0.0, 0.0) && r.meshRotation == r.angles && Tilted(r.angles.x)
    ensures !r.dragging && r.keys == {} && r.mousePos == Point2(width / 2.0, height / 2.0)
    ensures r.lastMouse == Point2(0.0, 0.0)
  {
    Scene(kind, Initial, Angles(0.0, 0.0), Angles(0.0, 0.0), false,
          Point2(0.0, 0.0), Point2(width / 2.0, height / 2.0), {})
  }

  /** `mousemove`: the window listener records the pointer; the canvas
      listener drags the object while the button is down, else orbits the
      camera. The drag uses the client delta only; the orbit prefers the
      browser's movement delta. */
  function OnMouseMove(s: Scene, e: MouseEvt): (r: Scene)
    ensures r.mousePos == Point2(e.clientX, e.clientY) && r.lastMouse == Point2(e.clientX, e.clientY)
    ensures s.dragging ==>
              r.cam == s.cam
              && r.angles.y == s.angles.y + (e.clientX - s.lastMouse.x) * MouseDragSensitivity
              && Tilted(r.angles.x)
              && r.angles.x == ClampTilt(s.angles.x + (e.clientY - s.lastMouse.y) * MouseDragSensitivity)
              && r.meshRotation == r.angles
    ensures !s.dragging ==>
              r.angles == s.angles && r.meshRotation == s.meshRotation
              && s.cam.yaw - r.cam.yaw == MovementOr(e.movementX, e.clientX, s.lastMouse.x) * Orientation.OrbitSensitivity
              && r.cam.pitch >= -PitchLimit
              && r.cam == Orientation.Orbit(s.cam, MovementOr(e.movementX, e.clientX, s.lastMouse.x),
                                            MovementOr(e.movementY, e.clientY, s.lastMouse.y))
    ensures r.cam.pos == s.cam.pos && r.cam.target == s.cam.target
    ensures r.kind == s.kind && r.dragging == s.dragging && r.keys == s.keys
    ensures r.(cam := s.cam, angles := s.angles, meshRotation := s.meshRotation,
               mousePos := s.mousePos, lastMouse := s.lastMouse) == s
  {
    var s1 := s.(mousePos := Point2(e.clientX, e.clientY));
    if s1.dragging then
      var a := Drag(s1.angles, e.clientX - s1.lastMouse.x, e.clientY - s1.lastMouse.y, MouseDragSensitivity);
      s1.(angles := a, meshRotation := a, lastMouse := Point2(e.clientX, e.clientY))
    else
      var dx := MovementOr(e.movementX, e.clientX, s1.lastMouse.x);
      var dy := MovementOr(e.movementY, e.clientY, s1.lastMouse.y);
      s1.(cam := Orientation.Orbit(s1.cam, dx, dy), lastMouse := Point2(e.clientX, e.clientY))
  }

  /** One input event; touch events have no listener in these scenes. */
  function Handle(m: Math, s: Scene, e: Event): (r: Scene)
    ensures e.KeyDown? ==> Lower(e.key) in r.keys && r.keys == PressKey(s.keys, e.key) && r.(keys := s.keys) == s
    ensures e.KeyUp? ==> Lower(e.key) !in r.keys && r.keys == ReleaseKey(s.keys, e.key) && r.(keys := s.keys) == s
    ensures e.MouseDown? ==> r.dragging && r.lastMouse == Point2(e.x, e.y)
                             && r.(dragging := s.dragging, lastMouse := s.lastMouse) == s
    ensures e.MouseUp? || e.MouseLeave? ==> !r.dragging && r.(dragging := s.dragging) == s
    ensures e.MouseMove? ==> r == OnMouseMove(s, e.e)
    ensures e.Wheel? ==> r.cam == WheelZoom(m, s.cam, e.deltaY) && r.(cam := s.cam) == s
    ensures e.TouchStart? || e.TouchMove? || e.TouchEnd? ==> r == s
  {
    match e
    case KeyDown(k) => s.(keys := PressKey(s.keys, k))
    case KeyUp(k) => s.(keys := ReleaseKey(s.keys, k))
    case MouseDown(x, y) => s.(dragging := true, lastMouse := Point2(x, y))
    case MouseUp => s.(dragging := false)
    case MouseLeave => s.(dragging := false)
    case MouseMove(ev) => OnMouseMove(s, ev)
    case Wheel(dy) => s.(cam := WheelZoom(m, s.cam, dy))
    case TouchStart(_) => s
    case TouchMove(_) => s
    case TouchEnd(_) => s
  }

  /** Every event keeps the mesh's rotation equal to the stored angles, the
      tilt in range, and the position target in the cube. */
  lemma HandlePreservesInvariants(m: Math, s: Scene, e: Event)
    requires s.meshRotation == s.angles && Tilted(s.angles.x) && InCube(s.cam.target)
    ensures var r := Handle(m, s, e);
            r.meshRotation == r.angles && Tilted(r.angles.x) && InCube(r.cam.target)
    ensures Handle(m, s, e).kind == s.kind
  {
  }

  /** The first frame of a fresh scene pulls the starting target onto the
      cube's face at `z = 9.5`; with the pointer at the centre of a viewport
      at least 300 px each way, auto-look leaves the orientation alone. */
  lemma CreateFirstTick(m: Math, kind: Kind, width: real, height: real, timeMs: real)
    requires Valid(m, Create(kind, width, height))
    ensures Tick(m, Create(kind, width, height), timeMs, width, height).state.cam.target == Vec3(0.0, 0.0, CubeLimit)
    ensures width >= 300.0 && height >= 300.0 ==>
              Tick(m, Create(kind, width, height), timeMs, width, height).state.cam.yaw == Pi
              && Tick(m, Create(kind, width, height), timeMs, width, height).state.cam.pitch == 0.0
  {
    InitialTargetOutsideCube(m);
  }

  /** What one frame produces: the new state and the pose to render. */
  datatype Frame = Frame(state: Scene, pose: Pose)

  /** `animate(time)`: displacement (sphere scene only), `moveCamera`,
      auto-look (skipped while dragging), then `updateCamera`. */
  function Tick(m: Math, s: Scene, timeMs: real, width: real, height: real): (f: Frame)
    requires Valid(m, s)
    ensures Valid(m, f.state)
    ensures s.kind.SphereScene? ==>
              f.state.kind.SphereScene? && f.state.kind.base == s.kind.base
              && f.state.kind.live == Displace(m, s.kind.base, timeMs * SecondsPerMs, SphereRadius)
    ensures s.kind.SquareScene? ==> f.state.kind == s.kind
    ensures InCube(f.state.cam.target)
    ensures f.state.cam.target == MoveCamera(m, s.cam, s.keys).target
    ensures f.state.cam.pos == Ease(s.cam.pos, f.state.cam.target)
    ensures InCube(s.cam.pos) ==> InCube(f.state.cam.pos)
    ensures s.dragging ==> f.state.cam.yaw == s.cam.yaw && f.state.cam.pitch == s.cam.pitch
    ensures !s.dragging ==> f.state.cam.pitch >= -PitchLimit
    ensures !s.dragging ==>
              f.state.cam.yaw == s.cam.yaw + Orientation.EdgeNudge(s.mousePos.x, width)
              && f.state.cam.pitch == Orientation.ClampPitch(s.cam.pitch + Orientation.EdgeNudge(s.mousePos.y, height))
    ensures f.pose == UpdateCamera(m, f.state.cam)
    ensures f.state.angles == s.angles && f.state.dragging == s.dragging && f.state.keys == s.keys
    ensures f.state.(cam := s.cam, kind := s.kind) == s
  {
    var t := timeMs * SecondsPerMs;
    var kind := match s.kind
      case SphereScene(base, live) => SphereScene(base, Displace(m, base, t, SphereRadius))
      case SquareScene => SquareScene;
    var moved := MoveCamera(m, s.cam, s.keys);
    var cam := Orientation.AutoLook(moved, s.mousePos, width, height, s.dragging);
    var s1 := s.(kind := kind, cam := cam);
    Frame(s1, UpdateCamera(m, cam))
  }

  /** Frames alone (no input) keep the target in the cube and, once the
      position is in the cube, keep it there too. */
  function Frames(m: Math, s: Scene, times: seq<real>, width: real, height: real): (r: Scene)
    requires Valid(m, s)
    ensures Valid(m, r)
    ensures |times| > 0 ==> InCube(r.cam.target)
    ensures InCube(s.cam.pos) && InCube(s.cam.target) ==> InCube(r.cam.pos)
    decreases |times|
  {
    if |times| == 0 then s
    else Frames(m, Tick(m, s, times[0], width, height).state, times[1..], width, height)
  }
}

=== FILE: manipulation.dfy ===
/** Rotating the focused object by dragging it: accumulated angles, the
    horizontal one unbounded and the vertical one clamped on both sides. */
module Manipulation {
  import opened Basics

  /** `Math.PI / 2 - 0.1`, the object's tilt limit. */
  const TiltLimit: real := Pi / 2.0 - 0.1

  /** Object rotation per pixel of mouse drag. */
  const MouseDragSensitivity: real := 0.005

  /** Object rotation per pixel of one-finger touch drag,
      `sphereDragSensitivity * 2`: twice the mouse's. */
  const TouchDragSensitivity: real := 0.01

  /** `rotation.x` and `rotation.y` of the object (or the stored
      `angleX`/`angleY` mirrored into them). */
  datatype Angles = Angles(x: real, y: real)

  predicate Tilted(a: real) {
    -TiltLimit <= a <= TiltLimit
  }

  /** `Math.max(-limit, Math.min(a, limit))`. */
  function ClampTilt(a: real): (r: real)
    ensures Tilted(r)
    ensures Tilted(a) ==> r == a
    ensures a < -TiltLimit ==> r == -TiltLimit
    ensures a > TiltLimit ==> r == TiltLimit
  {
    Max(-TiltLimit, Min(a, TiltLimit))
  }

  /** `EscenaCubo.rotate(dx, dy)`, and every drag handler that inlines it:
      `angleY += dx`, `angleX += dy`, then clamp `angleX`. */
  function Rotate(a: Angles, dx: real, dy: real): (r: Angles)
    ensures r.y == a.y + dx
    ensures Tilted(r.x)
    ensures Tilted(a.x + dy) ==> r.x == a.x + dy
    ensures a.x + dy < -TiltLimit ==> r.x == -TiltLimit
    ensures a.x + dy > TiltLimit ==> r.x == TiltLimit
  {
    Angles(ClampTilt(a.x + dy), a.y + dx)
  }

  /** A drag by pixel offsets `(dx, dy)` at the given sensitivity. */
  function Drag(a: Angles, dx: real, dy: real, sensitivity: real): (r: Angles)
    ensures r.y == a.y + dx * sensitivity
    ensures Tilted(r.x)
    ensures Tilted(a.x + dy * sensitivity) ==> r.x == a.x + dy * sensitivity
    ensures a.x + dy * sensitivity < -TiltLimit ==> r.x == -TiltLimit
    ensures a.x + dy * sensitivity > TiltLimit ==> r.x == TiltLimit
    ensures r.x == ClampTilt(a.x + dy * sensitivity)
  {
    Rotate(a, dx * sensitivity, dy * sensitivity)
  }

  /** `rotate(0, 0)` on an in-range tilt changes nothing: the clamp is
      idempotent. */
  lemma RotateZeroIdentity(a: Angles)
    requires Tilted(a.x)
    ensures Rotate(a, 0.0, 0.0) == a
  {
  }

  /** The sum of a sequence of reals. */
  function Sum(ds: seq<real>): real
    decreases |ds|
  {
    if |ds| == 0 then 0.0 else ds[0] + Sum(ds[1..])
  }

  /** Applying a sequence of rotations, horizontal offsets `dxs[i]` paired
      with vertical offsets `dys[i]`. */
  function RotateAll(a: Angles, dxs: seq<real>, dys: seq<real>): Angles
    requires |dxs| == |dys|
    decreases |dxs|
  {
    if |dxs| == 0 then a else RotateAll(Rotate(a, dxs[0], dys[0]), dxs[1..], dys[1..])
  }

  /** The horizontal angle accumulates without bound: after any sequence of
      rotations it is the start plus the sum of the horizontal offsets,
      while the tilt stays in range whenever at least one rotation ran. */
  lemma {:induction false} RotateAllAccumulates(a: Angles, dxs: seq<real>, dys: seq<real>)
    requires |dxs| == |dys|
    ensures RotateAll(a, dxs, dys).y == a.y + Sum(dxs)
    ensures |dxs| > 0 || Tilted(a.x) ==> Tilted(RotateAll(a, dxs, dys).x)
    decreases |dxs|
  {
    if |dxs| > 0 {
      RotateAllAccumulates(Rotate(a, dxs[0], dys[0]), dxs[1..], dys[1..]);
    }
  }
}

=== FILE: orientation.dfy ===
/** Camera orientation updates: the mouse orbit, the edge-pan auto-look,
    and the pitch clamp both of them end with. */
module Orientation {
  import opened Basics
  import opened Camera

  /** Radians of yaw and pitch per pixel of mouse orbit. */
  const OrbitSensitivity: real := 0.002

  /** Width in pixels of the border that triggers auto-look. */
  const EdgeSize: real := 150.0

  /** Radians of auto-look per frame at full intensity. */
  const AutoLookSpeed: real := 0.02

  /** `Math.max(-camPitchLimit, Math.min(camPitch, camPitch))`, as written:
      the inner `min` compares the pitch with itself, so only the lower
      bound is enforced. */
  function ClampPitch(p: real): (r: real)
    ensures r >= -PitchLimit
    ensures p >= -PitchLimit ==> r == p
    ensures p < -PitchLimit ==> r == -PitchLimit
  {
    Max(-PitchLimit, Min(p, p))
  }

  /** The clamp does not bound the pitch from above: a pitch of 2 radians,
      past straight up, is kept. */
  lemma ClampPitchNoUpperBound()
    ensures ClampPitch(2.0) == 2.0 && ClampPitch(2.0) > PitchLimit
  {
  }

  /** Clamping twice is clamping once. */
  lemma ClampPitchIdempotent(p: real)
    ensures ClampPitch(ClampPitch(p)) == ClampPitch(p)
  {
  }

  /** The non-drag `mousemove` branch: `yaw -= dx * 0.002`,
      `pitch -= dy * 0.002`, then the pitch clamp. */
  function Orbit(c: Cam, dx: real, dy: real): (r: Cam)
    ensures c.yaw - r.yaw == dx * OrbitSensitivity
    ensures r.pitch >= -PitchLimit
    ensures c.pitch - dy * OrbitSensitivity >= -PitchLimit ==> c.pitch - r.pitch == dy * OrbitSensitivity
    ensures c.pitch - dy * OrbitSensitivity < -PitchLimit ==> r.pitch == -PitchLimit
    ensures r.pos == c.pos && r.target == c.target
  {
    c.(yaw := c.yaw - dx * OrbitSensitivity, pitch := ClampPitch(c.pitch - dy * OrbitSensitivity))
  }

  /** Moving the mouse 10 px right with no drag turns the camera by
      0.02 rad. */
  lemma OrbitTenPixels(c: Cam)
    ensures Orbit(c, 10.0, 0.0).yaw == c.yaw - 0.02
  {
  }

  /** Yaw changes add up across orbit moves: two moves turn the camera as
      far as one move by their summed offsets. */
  lemma OrbitYawAdditive(c: Cam, dx1: real, dy1: real, dx2: real, dy2: real)
    ensures Orbit(Orbit(c, dx1, dy1), dx2, dy2).yaw == Orbit(c, dx1 + dx2, 0.0).yaw
  {
  }

  /** The signed auto-look change on one axis for a pointer coordinate `p`
      in a viewport of size `extent`: positive inside the near border,
      negative inside the far border (checked only when not near), zero in
      between. */
  function EdgeNudge(p: real, extent: real): (r: real)
    ensures p < EdgeSize ==> r > 0.0
    ensures EdgeSize <= p && p > extent - EdgeSize ==> r < 0.0
    ensures EdgeSize <= p <= extent - EdgeSize ==> r == 0.0
    ensures 0.0 <= p <= extent ==> -AutoLookSpeed <= r <= AutoLookSpeed
  {
    if p < EdgeSize then
      AutoLookSpeed * ((EdgeSize - p) / EdgeSize)
    else if p > extent - EdgeSize then
      -(AutoLookSpeed * ((p - (extent - EdgeSize)) / EdgeSize))
    else
      0.0
  }

  /** Both intensity ramps are linear: one pixel deeper into the near
      border adds `0.02 / 150` of nudge, and one pixel deeper into the far
      border (outside the near one) takes `0.02 / 150` away. */
  lemma EdgeNudgeLinear(p: real, extent: real)
    ensures p < EdgeSize - 1.0 ==> EdgeNudge(p, extent) - EdgeNudge(p + 1.0, extent) == AutoLookSpeed / EdgeSize
    ensures EdgeSize <= p && p > extent - EdgeSize ==>
              EdgeNudge(p + 1.0, extent) - EdgeNudge(p, extent) == -AutoLookSpeed / EdgeSize
  {
  }

  /** `autoRotateViewByMousePosition`: nothing while `suppressed` (a drag
      or touch rotation is active); otherwise nudge yaw and pitch by the
      edge ramps and clamp the pitch. */
  function AutoLook(c: Cam, pointer: Point2, width: real, height: real, suppressed: bool): (r: Cam)
    ensures suppressed ==> r == c
    ensures r.pos == c.pos && r.target == c.target
    ensures !suppressed ==> r.pitch >= -PitchLimit
    ensures !suppressed ==> r.yaw - c.yaw == EdgeNudge(pointer.x, width)
    ensures !suppressed ==> r.pitch == ClampPitch(c.pitch + EdgeNudge(pointer.y, height))
  {
    if suppressed then c
    else
      c.(yaw := c.yaw + EdgeNudge(pointer.x, width),
         pitch := ClampPitch(c.pitch + EdgeNudge(pointer.y, height)))
  }

  /** A pointer in the deadzone `[150, W-150] x [150, H-150]` leaves the
      orientation alone (given a pitch the clamp already accepts). */
  lemma AutoLookDeadzone(c: Cam, pointer: Point2, width: real, height: real, suppressed: bool)
    requires EdgeSize <= pointer.x <= width - EdgeSize
    requires EdgeSize <= pointer.y <= height - EdgeSize
    requires c.pitch >= -PitchLimit
    ensures AutoLook(c, pointer, width, height, suppressed) == c
  {
  }

  /** A pointer inside the viewport turns the camera by at most 0.02 rad on
      each axis per frame, whatever the prior orientation. */
  lemma AutoLookBounded(c: Cam, pointer: Point2, width: real, height: real, suppressed: bool)
    requires 0.0 <= pointer.x <= width && 0.0 <= pointer.y <= height
    requires c.pitch >= -PitchLimit
    ensures var r := AutoLook(c, pointer, width, height, suppressed);
            Abs(r.yaw - c.yaw) <= AutoLookSpeed && Abs(r.pitch - c.pitch) <= AutoLookSpeed
  {
  }

  /** Repeated calls with a still pointer give the same increment each
      time: the yaw change depends on the pointer and viewport only, not on
      the orientation it is applied to, and so does the pitch change as long
      as the nudged pitch stays clear of the lower clamp. */
  lemma AutoLookIncrementIndependent(c1: Cam, c2: Cam, pointer: Point2, width: real, height: real)
    ensures AutoLook(c1, pointer, width, height, false).yaw - c1.yaw
         == AutoLook(c2, pointer, width, height, false).yaw - c2.yaw
    ensures c1.pitch + EdgeNudge(pointer.y, height) >= -PitchLimit
            && c2.pitch + EdgeNudge(pointer.y, height) >= -PitchLimit ==>
              AutoLook(c1, pointer, width, height, false).pitch - c1.pitch
              == AutoLook(c2, pointer, width, height, false).pitch - c2.pitch
  {
  }
}

=== FILE: relief.dfy ===
/** The image-to-relief mapping of the relief scene: every sufficiently
    opaque pixel of an RGBA image becomes one small sphere on a grid of
    spacing 0.2, the pixel `(x, y)` of a `w`-by-`h` image at
    `(-0.1 w + 0.2 x, -0.1 h + 0.2 y)`, raised by the pixel's brightness
    times a height scale. The grid's cells span `[-0.1 n, 0.1 n]`, so they
    are centred on the origin; the points sit at the cells' low corners. */
module Relief {
  import opened Basics

  type Byte = b: int | 0 <= b < 256

  /** Grid spacing between neighbouring pixels' points. */
  const VoxelSize: real := 0.2

  /** Pixels whose normalised alpha is below this emit nothing. */
  const AlphaCutoff: real := 0.1

  /** `ImageData`: `w * h` pixels, four bytes each (R, G, B, A), row-major. */
  datatype Image = Image(w: nat, h: nat, data: seq<Byte>)

  predicate Valid(img: Image) {
    |img.data| == 4 * img.w * img.h
  }

  /** The four bytes of pixel `(x, y)` start at `(y w + x) 4` and lie inside
      the `4 w h` bytes of the image. */
  lemma PixelIndexInBounds(w: nat, h: nat, x: nat, y: nat)
    requires x < w && y < h
    ensures 0 <= (y * w + x) * 4 && (y * w + x) * 4 + 3 < 4 * w * h
  {
    assert y * w <= (h - 1) * w by {
      assert (h - 1) * w - y * w == (h - 1 - y) * w;
    }
    assert (h - 1) * w + w == h * w;
    assert 4 * w * h == 4 * (h * w);
  }

  /** Byte `c` (0 red, 1 green, 2 blue, 3 alpha) of pixel `(x, y)`. */
  function ByteAt(img: Image, x: nat, y: nat, c: nat): Byte
    requires Valid(img) && x < img.w && y < img.h && c < 4
  {
    PixelIndexInBounds(img.w, img.h, x, y);
    img.data[(y * img.w + x) * 4 + c]
  }

  /** Channel `c` of pixel `(x, y)`, normalised to `[0, 1]` by dividing by
      255. */
  function Channel(img: Image, x: nat, y: nat, c: nat): real
    requires Valid(img) && x < img.w && y < img.h && c < 4
  {
    ByteAt(img, x, y, c) as real / 255.0
  }

  /** The source skips a pixel when `a < 0.1`. */
  predicate Opaque(img: Image, x: nat, y: nat)
    requires Valid(img) && x < img.w && y < img.h
  {
    !(Channel(img, x, y, 3) < AlphaCutoff)
  }

  /** In byte terms the cut is between 25 and 26: `25 / 255 < 0.1 <= 26 / 255`. */
  lemma OpaqueIffAlphaByte(img: Image, x: nat, y: nat)
    requires Valid(img) && x < img.w && y < img.h
    ensures Opaque(img, x, y) <==> ByteAt(img, x, y, 3) >= 26
  {
  }

  /** Perceived brightness with the Rec. 601 luma weights. */
  function Brightness(r: real, g: real, b: real): real {
    0.299 * r + 0.587 * g + 0.114 * b
  }

  /** The weights sum to one, so channels in `[0, 1]` give a brightness in
      `[0, 1]`, and with a non-negative height scale a height in
      `[0, heightScale]`. */
  lemma HeightBounded(r: real, g: real, b: real, heightScale: real)
    requires 0.0 <= r <= 1.0 && 0.0 <= g <= 1.0 && 0.0 <= b <= 1.0
    requires heightScale >= 0.0
    ensures 0.0 <= Brightness(r, g, b) <= 1.0
    ensures 0.0 <= Brightness(r, g, b) * heightScale <= heightScale
  {
    var br := Brightness(r, g, b);
    assert br * heightScale <= 1.0 * heightScale;
  }

  /** `startX = -w * voxelSize / 2` (and likewise `startY` with `h`). */
  function Start(n: nat): real {
    -(n as real) * VoxelSize / 2.0
  }

  /** The grid coordinate of column (or row) `i` out of `n`. */
  function GridCoord(n: nat, i: nat): real {
    Start(n) + i as real * VoxelSize
  }

  /** The grid is centred: the `n` cells of width 0.2 starting at the point
      coordinates cover exactly `[-0.1 n, 0.1 n]`, and the first and last
      cells mirror each other about the origin. */
  lemma GridCentred(n: nat, i: nat)
    requires i < n
    ensures GridCoord(n, 0) == -(n as real) * 0.1
    ensures GridCoord(n, n - 1) + VoxelSize == (n as real) * 0.1
    ensures GridCoord(n, i) + VoxelSize == -GridCoord(n, n - 1 - i)
  {
  }

  /** One emitted sphere: its position and its colour. */
  datatype Point = Point(pos: Vec3, r: real, g: real, b: real)

  /** The point pixel `(x, y)` becomes. */
  function PointAt(img: Image, heightScale: real, x: nat, y: nat): Point
    requires Valid(img) && x < img.w && y < img.h
  {
    var r := Channel(img, x, y, 0);
    var g := Channel(img, x, y, 1);
    var b := Channel(img, x, y, 2);
    Point(Vec3(GridCoord(img.w, x), GridCoord(img.h, y), Brightness(r, g, b) * heightScale), r, g, b)
  }

  datatype Pixel = Pixel(x: nat, y: nat)

  /** Row-major order: earlier row, or same row and earlier column. */
  predicate Before(p: Pixel, q: Pixel) {
    p.y < q.y || (p.y == q.y && p.x < q.x)
  }

  predicate InImage(img: Image, p: Pixel) {
    p.x < img.w && p.y < img.h
  }

  /** The source's skip test as a mask over pixel coordinates: true exactly
      for the opaque pixels of the image. The row-major filter below is
      written over any such mask. */
  function OpaqueMask(img: Image): (nat, nat) -> bool {
    (x: nat, y: nat) => Valid(img) && x < img.w && y < img.h && Opaque(img, x, y)
  }

  /** `r` lists exactly the pixels of row `y` with column below `x` that
      `keep` accepts, left to right: each is in the row, below the bound and
      accepted; the columns strictly increase (so none repeats); and none is
      missing. */
  ghost predicate RowExact(keep: (nat, nat) -> bool, y: nat, x: nat, r: seq<Pixel>) {
    && (forall i :: 0 <= i < |r| ==> r[i].y == y && r[i].x < x && keep(r[i].x, y))
    && (forall i, j :: 0 <= i < j < |r| ==> r[i].x < r[j].x)
    && (forall p: Pixel :: p.y == y && p.x < x && keep(p.x, y) ==> p in r)
  }

  /** `r` lists exactly the accepted pixels of the rows above `y` (columns
      below `w`), strictly in row-major order (so none repeats), with none
      missing. */
  ghost predicate RowsExact(keep: (nat, nat) -> bool, w: nat, y: nat, r: seq<Pixel>) {
    && (forall i :: 0 <= i < |r| ==> r[i].x < w && r[i].y < y && keep(r[i].x, r[i].y))
    && (forall i, j :: 0 <= i < j < |r| ==> Before(r[i], r[j]))
    && (forall p: Pixel :: p.x < w && p.y < y && keep(p.x, p.y) ==> p in r)
  }

  /** The accepted pixels of row `y` with column below `x`, left to right:
      the inner loop's visiting order. */
  function RowKept(keep: (nat, nat) -> bool, y: nat, x: nat): seq<Pixel>
    decreases x
  {
    if x == 0 then []
    else RowKept(keep, y, x - 1) + (if keep(x - 1, y) then [Pixel(x - 1, y)] else [])
  }

  /** The kept pixels of a row are exactly its accepted pixels below the
      column bound, left to right, at most one per column. */
  lemma RowKeptSpec(keep: (nat, nat) -> bool, y: nat, x: nat)
    ensures |RowKept(keep, y, x)| <= x
    ensures RowExact(keep, y, x, RowKept(keep, y, x))
  {
    RowKeptSound(keep, y, x);
    RowKeptSorted(keep, y, x);
    RowKeptComplete(keep, y, x);
  }

  lemma {:induction false} RowKeptSound(keep: (nat, nat) -> bool, y: nat, x: nat)
    ensures |RowKept(keep, y, x)| <= x
    ensures var r := RowKept(keep, y, x);
            forall i :: 0 <= i < |r| ==> r[i].y == y && r[i].x < x && keep(r[i].x, y)
    decreases x
  {
    if x > 0 {
      var prev := RowKept(keep, y, x - 1);
      RowKeptSound(keep, y, x - 1);
      var r := prev + (if keep(x - 1, y) then [Pixel(x - 1, y)] else []);
      assert RowKept(keep, y, x) == r;
      forall i | 0 <= i < |r|
        ensures r[i].y == y && r[i].x < x && keep(r[i].x, y)
      {
        if i < |prev| {
          assert r[i] == prev[i];
        }
      }
    }
  }

  lemma {:induction false} RowKeptSorted(keep: (nat, nat) -> bool, y: nat, x: nat)
    ensures var r := RowKept(keep, y, x);
            forall i, j :: 0 <= i < j < |r| ==> r[i].x < r[j].x
    decreases x
  {
    if x > 0 {
      var prev := RowKept(keep, y, x - 1);
      RowKeptSound(keep, y, x - 1);
      RowKeptSorted(keep, y, x - 1);
      var r := prev + (if keep(x - 1, y) then [Pixel(x - 1, y)] else []);
      assert RowKept(keep, y, x) == r;
      forall i, j | 0 <= i < j < |r|
        ensures r[i].x < r[j].x
      {
        assert r[i] == prev[i];
        if j < |prev| {
          assert r[j] == prev[j];
        }
      }
    }
  }

  lemma {:induction false} RowKeptComplete(keep: (nat, nat) -> bool, y: nat, x: nat)
    ensures forall p: Pixel :: p.y == y && p.x < x && keep(p.x, y) ==> p in RowKept(keep, y, x)
    decreases x
  {
    if x > 0 {
      var prev := RowKept(keep, y, x - 1);
      RowKeptComplete(keep, y, x - 1);
      var r := prev + (if keep(x - 1, y) then [Pixel(x - 1, y)] else []);
      assert RowKept(keep, y, x) == r;
      forall p: Pixel | p.y == y && p.x < x && keep(p.x, y)
        ensures p in r
      {
        if p.x < x - 1 {
          assert p in prev;
        } else {
          assert r[|r| - 1] == p;
        }
      }
    }
  }

  /** The accepted pixels of the rows above `y`, in row-major order: the
      nested loop's visiting order. */
  function Kept(keep: (nat, nat) -> bool, w: nat, y: nat): seq<Pixel>
    decreases y
  {
    if y == 0 then [] else Kept(keep, w, y - 1) + RowKept(keep, y - 1, w)
  }

  /** The kept pixels of the first `y` rows are exactly their accepted
      pixels, strictly in row-major order, at most one per pixel. */
  lemma KeptSpec(keep: (nat, nat) -> bool, w: nat, y: nat)
    ensures |Kept(keep, w, y)| <= y * w
    ensures RowsExact(keep, w, y, Kept(keep, w, y))
  {
    KeptSound(keep, w, y);
    KeptSorted(keep, w, y);
    KeptComplete(keep, w, y);
  }

  lemma {:induction false} KeptSound(keep: (nat, nat) -> bool, w: nat, y: nat)
    ensures |Kept(keep, w, y)| <= y * w
    ensures var r := Kept(keep, w, y);
            forall i :: 0 <= i < |r| ==> r[i].x < w && r[i].y < y && keep(r[i].x, r[i].y)
    decreases y
  {
    if y > 0 {
      var above, row := Kept(keep, w, y - 1), RowKept(keep, y - 1, w);
      KeptSound(keep, w, y - 1);
      RowKeptSound(keep, y - 1, w);
      var r := above + row;
      assert Kept(keep, w, y) == r;
      assert |r| <= y * w by {
        assert (y - 1) * w + w == y * w;
      }
      forall i | 0 <= i < |r|
        ensures r[i].x < w && r[i].y < y && keep(r[i].x, r[i].y)
      {
        if i < |above| {
          assert r[i] == above[i];
        } else {
          assert r[i] == row[i - |above|];
        }
      }
    }
  }

  lemma {:induction false} KeptSorted(keep: (nat, nat) -> bool, w: nat, y: nat)
    ensures var r := Kept(keep, w, y);
            forall i, j :: 0 <= i < j < |r| ==> Before(r[i], r[j])
    decreases y
  {
    if y > 0 {
      var above, row := Kept(keep, w, y - 1), RowKept(keep, y - 1, w);
      KeptSound(keep, w, y - 1);
      KeptSorted(keep, w, y - 1);
      RowKeptSound(keep, y - 1, w);
      RowKeptSorted(keep, y - 1, w);
      var r := above + row;
      assert Kept(keep, w, y) == r;
      forall i, j | 0 <= i < j < |r|
        ensures Before(r[i], r[j])
      {
        if j < |above| {
          assert r[i] == above[i] && r[j] == above[j];
        } else if i >= |above| {
          assert r[i] == row[i - |above|] && r[j] == row[j - |above|];
        } else {
          assert r[i] == above[i] && r[j] == row[j - |above|];
        }
      }
    }
  }

  lemma {:induction false} KeptComplete(keep: (nat, nat) -> bool, w: nat, y: nat)
    ensures forall p: Pixel :: p.x < w && p.y < y && keep(p.x, p.y) ==> p in Kept(keep, w, y)
    decreases y
  {
    if y > 0 {
      var above, row := Kept(keep, w, y - 1), RowKept(keep, y - 1, w);
      KeptComplete(keep, w, y - 1);
      RowKeptComplete(keep, y - 1, w);
      var r := above + row;
      assert Kept(keep, w, y) == r;
      forall p: Pixel | p.x < w && p.y < y && keep(p.x, p.y)
        ensures p in r
      {
        if p.y < y - 1 {
          assert p in above;
        } else {
          assert p in row;
        }
      }
    }
  }

  /** Exactly the opaque pixels of the whole image, each once, in the order
      the source's nested loop visits them. */
  function OpaquePixels(img: Image): (r: seq<Pixel>)
    requires Valid(img)
    ensures |r| <= img.w * img.h
    ensures forall i :: 0 <= i < |r| ==> InImage(img, r[i]) && Opaque(img, r[i].x, r[i].y)
    ensures forall i, j :: 0 <= i < j < |r| ==> Before(r[i], r[j])
    ensures forall c: nat, l: nat :: c < img.w && l < img.h && Opaque(img, c, l) ==> Pixel(c, l) in r
  {
    KeptSpec(OpaqueMask(img), img.w, img.h);
    assert img.h * img.w == img.w * img.h;
    Kept(OpaqueMask(img), img.w, img.h)
  }

  /** `pts` are the points of the pixels `ps`, one for one. */
  predicate PointsOf(img: Image, heightScale: real, pts: seq<Point>, ps: seq<Pixel>)
    requires Valid(img)
  {
    && |pts| == |ps|
    && forall i :: 0 <= i < |ps| ==> InImage(img, ps[i]) && pts[i] == PointAt(img, heightScale, ps[i].x, ps[i].y)
  }

  /** Appending one pixel's point keeps points and pixels in step. */
  lemma PointsOfAppend(img: Image, heightScale: real, pts: seq<Point>, ps: seq<Pixel>, p: Pixel)
    requires Valid(img) && InImage(img, p)
    requires PointsOf(img, heightScale, pts, ps)
    ensures PointsOf(img, heightScale, pts + [PointAt(img, heightScale, p.x, p.y)], ps + [p])
  {
  }

  /** Visiting pixel `(x, y)` extends the kept pixels by that pixel exactly
      when it is opaque. */
  lemma ColumnStep(img: Image, y: nat, x: nat)
    requires Valid(img) && y < img.h && x < img.w
    ensures var keep := OpaqueMask(img);
            Kept(keep, img.w, y) + RowKept(keep, y, x + 1)
            == Kept(keep, img.w, y) + RowKept(keep, y, x) + (if Opaque(img, x, y) then [Pixel(x, y)] else [])
  {
  }

  /** Finishing row `y` gives the kept pixels of the rows up to `y`. */
  lemma RowStep(img: Image, y: nat)
    requires Valid(img) && y < img.h
    ensures var keep := OpaqueMask(img);
            Kept(keep, img.w, y + 1) == Kept(keep, img.w, y) + RowKept(keep, y, img.w)
  {
  }

  /** The body of the pixel loop for pixel `(x, y)`: read the four
      channels, skip the pixel when `a < 0.1`, otherwise build its point on
      the grid that starts at `(startX, startY)`. A pixel is kept exactly when
      its alpha byte is at least 26; its point sits at
      `(-0.1 w + 0.2 x, -0.1 h + 0.2 y)` at a height between 0 and a
      non-negative height scale. */
  method PixelPoint(img: Image, heightScale: real, startX: real, startY: real, x: nat, y: nat)
    returns (keep: bool, p: Point)
    requires Valid(img) && x < img.w && y < img.h
    requires startX == Start(img.w) && startY == Start(img.h)
    ensures keep <==> Opaque(img, x, y)
    ensures keep <==> ByteAt(img, x, y, 3) >= 26
    ensures keep ==> p == PointAt(img, heightScale, x, y)
    ensures keep ==> p.pos.x == -0.1 * (img.w as real) + 0.2 * (x as real)
    ensures keep ==> p.pos.y == -0.1 * (img.h as real) + 0.2 * (y as real)
    ensures keep && heightScale >= 0.0 ==> 0.0 <= p.pos.z <= heightScale
  {
    PixelIndexInBounds(img.w, img.h, x, y);
    var idx := (y * img.w + x) * 4;
    var r := img.data[idx] as real / 255.0;
    var g := img.data[idx + 1] as real / 255.0;
    var b := img.data[idx + 2] as real / 255.0;
    var a := img.data[idx + 3] as real / 255.0;
    assert a == Channel(img, x, y, 3);
    assert r == Channel(img, x, y, 0) && g == Channel(img, x, y, 1) && b == Channel(img, x, y, 2);
    keep := !(a < AlphaCutoff);
    OpaqueIffAlphaByte(img, x, y);
    var z := Brightness(r, g, b) * heightScale;
    if heightScale >= 0.0 {
      HeightBounded(r, g, b, heightScale);
    }
    p := Point(Vec3(startX + x as real * VoxelSize, startY + y as real * VoxelSize, z), r, g, b);
  }

  /** One pass of the inner loop: the pixels of row `y`, left to right,
      appended to the points of the rows above. */
  method ScanRow(img: Image, heightScale: real, startX: real, startY: real, y: nat, above: seq<Point>)
    returns (pts: seq<Point>)
    requires Valid(img) && y < img.h
    requires startX == Start(img.w) && startY == Start(img.h)
    requires PointsOf(img, heightScale, above, Kept(OpaqueMask(img), img.w, y))
    ensures PointsOf(img, heightScale, pts, Kept(OpaqueMask(img), img.w, y + 1))
  {
    pts := above;
    var x := 0;
    while x < img.w
      invariant 0 <= x <= img.w
      invariant PointsOf(img, heightScale, pts, Kept(OpaqueMask(img), img.w, y) + RowKept(OpaqueMask(img), y, x))
    {
      ghost var done := Kept(OpaqueMask(img), img.w, y) + RowKept(OpaqueMask(img), y, x);
      var keep, p := PixelPoint(img, heightScale, startX, startY, x, y);
      ColumnStep(img, y, x);
      if keep {
        PointsOfAppend(img, heightScale, pts, done, Pixel(x, y));
        pts := pts + [p];
      }
      x := x + 1;
    }
    RowStep(img, y);
  }

  /** The `img.onload` handler's pixel loop. The group is cleared first, so
      the previous contents of `group` play no part: afterwards it holds one
      point per opaque pixel, in row-major order, and nothing else. */
  method Rebuild(img: Image, heightScale: real, group: seq<Point>) returns (pts: seq<Point>)
    requires Valid(img)
    ensures PointsOf(img, heightScale, pts, OpaquePixels(img))
    ensures |pts| <= img.w * img.h
  {
    pts := [];
    var startX := -(img.w as real) * VoxelSize / 2.0;
    var startY := -(img.h as real) * VoxelSize / 2.0;
    var y := 0;
    while y < img.h
      invariant 0 <= y <= img.h
      invariant PointsOf(img, heightScale, pts, Kept(OpaqueMask(img), img.w, y))
    {
      pts := ScanRow(img, heightScale, startX, startY, y, pts);
      y := y + 1;
    }
  }
}
